=== FILE: README.md ===
# source-code-packer, modelled in Dafny

source-code-packer collects the source files of a project directory and
packs them into a `.tar.gz` archive. It can run as a command-line script
(`main.py`) or as a desktop application. The desktop application stores
one record per project (path, extensions, exclusions) in `config.json`,
checks exclusions before using them, and edits the extension allow-list as
tags. This project models the logic behind both:

- **The packaging core** (`src/packager.py`, and its older copy in
  `main.py`). `Walk` is the pruned top-down directory walk that gathers the
  matching files. `Archive` names the archive and its entries. `FileTree` is
  the nested mapping `print_tree` builds and the `├── `/`└── ` listing it
  renders. `Packager.RunPackaging` is the single `(message, output_path)`
  result of a packaging run.
- **The command-line script** (`Cli`): the lowercasing `read_config`, the
  exclusion prompt that ends at "done", the set-based deduplication, and the
  order of `main`'s early exits.
- **The project list in `config.json`** (`Config`): the default document,
  `save_config`'s upsert keyed by project path, and `delete_config`'s filter.
- **The dependency container** (`DI.Container`): registrations, the
  singleton cache and the set of names being resolved, updated in place.
- **Exclusion validation** (`ExcludeValidation`): the join followed by the
  "is a directory and starts with the project path" test.
- **The extension allow-list** (`ExtensionHandling.ExtensionList`): adding
  and removing extensions on the list shared with the GUI, plus the
  coordinate list of the Tk tag's rounded rectangle.

Two parts of the repository are copies of code modelled once. `main.py`
repeats `gather_files` (lines 24-41), the archive step (lines 43-60) and
`print_tree` (lines 62-91) of `src/packager.py`; `Walk.GatherFiles`,
`Archive.PackageFiles`, `FileTree.BuildTree` and `FileTree.PrintDict` model
both. The Tk editor in `src/gui_functions/extension_handling.py` repeats the
list logic of the Qt editor in `src/gui_functions/extension_handlers.py`
(`add_extension` at lines 33-51, `remove_extension` at lines 80-90,
`initialize_extensions` at lines 108-113); `ExtensionHandling.ExtensionList`
models both.

The filesystem below the project is a value, `Walk.Dir`: a name, file
names, and subdirectories, each in the order the operating system lists
them. Paths in the packaging core are sequences of segments. A joined
exclusion is the project path followed by the exclusion split on `/`. The
archive is the sequence of `(arcname, source)` entries. Whether the archive
can be created and which files cannot be read are parameters. So are the
temporary directory, the configuration file's contents, the console lines
typed at the exclusion prompt, and the `isdir` test.

Three behaviours of the code are worth knowing before reading the model:

- An exclusion equal to the project root prunes nothing. The walk only
  compares the subdirectories it is about to enter with the exclusions,
  never its own top directory (src/packager.py:19-21;
  `Walk.ExcludingRootChangesNothing`).
- `gather_files` lowercases only the file name and compares it with the
  extensions as given (src/packager.py:23-24). An extension holding an
  upper-case letter therefore selects nothing
  (`Walk.UpperExtensionNeverMatches`). Only the command-line `read_config`
  lowercases the configured extensions, which makes matching
  case-insensitive there (main.py:17; `Cli.CaseInsensitiveMatching`).
- `validate_exclude_dir` tests a string prefix, not path segments
  (src/gui_functions/validate_exclude_dir.py:10-12). It accepts a sibling
  that shares a prefix (`ExcludeValidation.SiblingWithSharedPrefixAccepted`)
  and a relative path climbing out with `..`
  (`ExcludeValidation.EscapeWithDotDotAccepted`).

## Model

| member | source | states |
|---|---|---|
| Paths.JoinStr | src/gui_functions/validate_exclude_dir.py:10 | `os.path.join` of two strings: an absolute second part replaces the first; otherwise the result starts with the first part and ends with the second |
| Paths.Split | src/packager.py:17 | splitting an exclusion on `/` gives at least one segment, and no segment holds `/` |
| Paths.SplitJoin | src/packager.py:17 | joining the segments back with `/` gives the exclusion string back, so no exclusion is lost or merged with another |
| Paths.Basename | src/packager.py:37 | the base name of the normalised project path is its last segment, or "" for the root |
| Paths.RelPath | src/packager.py:41 | `relpath` never gives an empty path |
| Paths.RelPathBelow | src/packager.py:41 | for a file below the start directory, `relpath` is the segments after the start, and the start followed by `relpath` is the file again |
| Paths.RelPathSelf | src/packager.py:41 | the path of a directory relative to itself is "." |
| Text.Lower | src/packager.py:24 | `lower()` keeps the length, maps each character through the case mapping, and leaves no upper-case letter |
| Text.LowerIdempotent | src/packager.py:24 | lowercasing twice is lowercasing once |
| Text.LoweredNeverEndsWithUpper | src/packager.py:24 | a lowercased name never ends with a text that holds an upper-case letter |
| Text.Trim | main.py:108 | `strip()` gives the slice of the input that starts after its leading white space; everything cut before and after it is white space; it neither starts nor ends with white space; it is empty exactly when the input is all white space |
| Text.TrimIdempotent | src/gui_functions/extension_handlers.py:11 | stripping twice is stripping once |
| Text.TrimFixed | src/gui_functions/extension_handlers.py:11 | a text that neither starts nor ends with white space is left unchanged by `strip()` |
| Walk.ExcludeFull | src/packager.py:17 | one joined exclusion path per exclusion, in order: the project path followed by the exclusion's segments |
| Walk.Surviving | src/packager.py:21 | the pruned `dirs[:]` keeps exactly the subdirectories whose joined path is not an exclusion path |
| Walk.MatchingFiles | src/packager.py:22-25 | a path is appended for a directory exactly when it is the directory's path plus a listed file whose lowercased name ends with one of the extensions |
| Walk.WalkStep | src/packager.py:19-25 | one step of `os.walk`: the first pending directory contributes its matching files, then its surviving subdirectories are walked before the rest, and the work left shrinks |
| Walk.GatherFiles | src/packager.py:8-26 | the walk loop returns what the recursive top-down walk returns: a directory's matching files, then each surviving subdirectory's files in listing order |
| Walk.GatherMembership | src/packager.py:19-25 | a path is gathered iff it lies below the root, names a file of the tree, its lowercased name ends with one of the extensions as given, and no directory on the way to it is an exclusion path |
| Walk.GatheredSelected | src/packager.py:19-25 | every gathered path is such a selected file |
| Walk.SelectedGathered | src/packager.py:19-25 | every selected file is gathered |
| Walk.UpperExtensionNeverMatches | src/packager.py:24 | an extension holding an upper-case letter selects no file, because only the file name is lowercased |
| Walk.NoExtensionsNoFiles | src/packager.py:24 | with no extensions nothing is gathered |
| Walk.ExcludedSubtreeOmitted | src/packager.py:21 | nothing below an excluded directory is gathered |
| Walk.GatherExclusionsAgree | src/packager.py:17-21 | only exact membership of paths below the root matters: two exclusion lists that agree there give the same result in the same order |
| Walk.ExclusionOrderIrrelevant | src/packager.py:17-21 | listing the same exclusion paths in another order, or repeating them, gives the same result |
| Walk.ExcludingRootChangesNothing | src/packager.py:19-21 | excluding the project root itself prunes nothing |
| Walk.FileAtNoPrefix | src/packager.py:19 | in a directory tree a real filesystem can hold, no file lies below another file |
| Walk.GatherPrefixFree | src/packager.py:19-25 | every gathered path lies below the root, and no gathered path lies below another |
| Walk.GatherDistinct | src/packager.py:19-25 | in such a tree every file is visited once, so no path is gathered twice |
| Archive.Entries | src/packager.py:40-42 | one entry per file, in input order, named by the file's path relative to the project |
| Archive.EntriesRoundTrip | src/packager.py:40-42 | joining the project path with an entry's name gives back the file it was taken from, and distinct files get distinct entry names |
| Archive.PackageFiles | src/packager.py:28-43 | the archive is written iff it can be created and every file can be read; it is `<output dir>/<basename>.tar.gz` holding the entries; otherwise the error names the archive or the first unreadable file |
| FileTree.LessIrreflexive | src/packager.py:70 | the key order used by `sorted` never puts a key before itself |
| FileTree.LessTransitive | src/packager.py:70 | the key order is transitive |
| FileTree.LessTotal | src/packager.py:70 | any two distinct keys are ordered one way or the other |
| FileTree.FindIn | src/packager.py:58-59 | looking up a key finds the entry stored under it, or reports that no entry has that key |
| FileTree.PutMembers | src/packager.py:58-59 | storing a key adds no entry other than the stored one |
| FileTree.PutSorted | src/packager.py:58-59 | storing a key keeps a level's keys in increasing order |
| FileTree.FindPut | src/packager.py:58-59 | after storing, the key maps to the stored node and every other key maps to what it did before |
| FileTree.PutFound | src/packager.py:58-59 | storing back what a key already holds changes nothing, which is `setdefault` on a present key |
| FileTree.InsertFails | src/packager.py:56-59 | placing a file fails exactly when a proper prefix of its relative path is already a file |
| FileTree.InsertPaths | src/packager.py:56-59 | a successful placement adds exactly the path and its parent directories and keeps every level sorted |
| FileTree.InsertIdempotent | src/packager.py:59 | placing a path that is already there changes nothing |
| FileTree.InsertLeaves | src/packager.py:56-59 | a successful placement adds no file other than the placed path |
| FileTree.RelativeParts | src/packager.py:55 | the relative parts are non-empty, and the project path followed by them is the file |
| FileTree.BuildTree | src/packager.py:53-59 | the loop over the files builds the tree the specification function gives, or stops with the first file's error |
| FileTree.BuildErrorStays | src/packager.py:54-59 | once a file cannot be placed, the whole build fails with that error |
| FileTree.BuildPaths | src/packager.py:53-59 | the built tree is sorted at every level and holds exactly the relative paths of the files and their parent directories |
| FileTree.BuildLeaves | src/packager.py:53-59 | every file of the built tree is the relative path of a listed file |
| FileTree.BuildSucceeds | src/packager.py:53-59 | when every file lies below the project and none lies below another, building never fails |
| FileTree.DuplicateFileCollapses | src/packager.py:54-59 | listing a file twice gives the same tree as listing it once |
| FileTree.Connector | src/packager.py:69 | the connector is `└── ` exactly for the last entry of a level |
| FileTree.Extension | src/packager.py:73 | the indentation added below an entry is blank exactly under the last entry of a level |
| FileTree.LineCount | src/packager.py:62-74 | the listing has one line per file and directory of the tree |
| FileTree.LinesStartWithPrefix | src/packager.py:71-74 | every line of a level starts with that level's prefix |
| FileTree.EntryLayout | src/packager.py:69-74 | an entry's own line carries `└── ` if it is last and `├── ` otherwise; every line below it extends the prefix with `    ` under the last entry and `│   ` under any other |
| FileTree.PrefixedCard | src/packager.py:70-74 | moving a set of paths one level down under a key keeps their number |
| FileTree.PathsFromStep | src/packager.py:70-74 | a path is among those of the entries from `i` on iff it goes through entry `i` or through a later entry |
| FileTree.KeyNotLater | src/packager.py:53-59 | in a dict built in sorted order no later entry repeats a key |
| FileTree.PathsFromMembers | src/packager.py:62-74 | the paths gathered from the entries from `i` on are exactly the paths the dict of those entries has |
| FileTree.PathsCount | src/packager.py:62-74 | a sorted tree holds exactly as many distinct paths as the listing counts entries |
| FileTree.ListingCountsPaths | src/packager.py:62-74 | the listing of a sorted tree has one line per distinct path of the tree, and those paths are the ones the tree has |
| FileTree.ListingOfBuild | src/packager.py:53-74 | the listing of the gathered files has one line per distinct leading part of their paths below the project: each file and each directory on the way to one appears once |
| FileTree.LevelOrder | src/packager.py:70 | within a level of the built tree the entries come out in increasing key order, each line being its connector followed by its key |
| FileTree.PrintDict | src/packager.py:62-74 | the recursive printer appends exactly the lines of the listing to the output it is given |
| FileTree.PrintEntry | src/packager.py:70-74 | one entry appends its own line, then for a directory the lines below it under the extended prefix, and leaves the lines of the later entries to come |
| FileTree.PrintTree | src/packager.py:45-77 | no files give the empty string; otherwise the result is the rendered tree when it can be built and the build's error when not |
| Packager.GatheredFilesBuild | src/packager.py:89-98 | the tree of the gathered files can always be built when the directory tree is one a real filesystem can hold |
| Packager.RunPackaging | src/packager.py:79-103 | exactly one result: the "no files" message with no path when nothing is gathered; the archive path and the message naming it followed by the listing exactly when gathering found files, the archive was written and the tree was built; an error message otherwise; on a real tree only the archive can fail |
| Cli.LowerAll | main.py:17 | every configured extension is lowercased, one for one and in order |
| Cli.ReadConfig | main.py:6-22 | an unreadable file gives two empty lists; otherwise the lowercased extensions and the exclusions, a missing key counting as empty; no returned extension holds an upper-case letter |
| Cli.CaseInsensitiveMatching | main.py:17 | with lowercased extensions a file matches iff its lowercased name ends with the lowercase of some configured extension |
| Cli.Entered | main.py:108-111 | the lines typed before "done", each stripped, one for one |
| Cli.CollectedHasNoDone | main.py:107-111 | no line taken from the keyboard is "done" in any case |
| Cli.ReadExclusions | main.py:105-111 | the prompt loop returns the configured exclusions followed by every stripped line before the first "done"; no "done" means the input ran out |
| Cli.Dedupe | main.py:113 | `list(set(...))` holds every exclusion once and nothing else |
| Cli.ExcludeFullSameSet | main.py:113 | the joined exclusion paths depend only on which exclusions there are |
| Cli.DedupeKeepsGather | main.py:113-115 | deduplicating the exclusions, in any order, leaves the gathered files unchanged |
| Cli.RunScript | main.py:93-126 | with no extensions the script stops before any prompt and prints the notice; when the input ends before "done" it ends with an uncaught `EOFError`, printing nothing on standard output; it prints the "no files" message exactly when nothing is gathered; on success it prints the archive path, the header and the tree lines; it packs exactly when projects are configured, "done" is entered, some file is gathered, the archive can be created, every gathered file is readable and the tree can be built; it crashes while archiving exactly when files were gathered and the archive cannot be created or one of them is unreadable; on a real tree building the tree never crashes |
| Cli.PackAndList | main.py:121-126 | the script packs exactly when the archive can be written and the tree can be built; it crashes while archiving exactly when the archive cannot be created or a gathered file is unreadable; it writes `/tmp/<basename>.tar.gz` and prints its path, the header and the listing |
| Config.DefaultProjects | src/config.py:11-21 | the default document holds exactly one project, `change_project_path_here`, with extensions `[".py"]` and exclusions `["__pycache__"]` |
| Config.ReadConfig | src/config.py:23-34 | a missing file is created holding the default document and the default list returned; an existing file is returned as stored (empty without the key) and left alone |
| Config.ReadConfigStable | src/config.py:23-34 | reading a second time returns what the first read returned and leaves the file as it was |
| Config.FirstMatch | src/config.py:47-48 | the index found is the first entry with the project path; none means no entry has it |
| Config.SaveConfig | src/config.py:36-55 | the for/else loop writes the upsert of the project into the stored list, starting from an empty list when there is no file |
| Config.UpsertReplacesFirst | src/config.py:47-50 | with a match, the length is kept, the first match is replaced and every other entry is untouched |
| Config.UpsertAppends | src/config.py:51-52 | without a match, the project is appended at the end |
| Config.SaveToMissing | src/config.py:38-39 | saving with no file gives a list holding just that project |
| Config.UpsertFindable | src/config.py:47-52 | after a save, looking up the project path finds the saved project |
| Config.FirstMatchAt | src/config.py:47-48 | an entry with the path and none before it is what the lookup finds |
| Config.UpsertIdempotent | src/config.py:36-55 | saving the same project twice writes what saving it once writes |
| Config.Remove | src/config.py:66 | the filter keeps exactly the entries with another path and never grows the list |
| Config.DeleteConfig | src/config.py:57-69 | no file means nothing happens; otherwise the filtered list is written |
| Config.RemoveAppend | src/config.py:66 | the filter keeps the surviving entries in their original order |
| Config.RemoveKeepsOthers | src/config.py:66 | a list without the path is left as it is |
| Config.DeleteUndoesSave | src/config.py:36-69 | deleting a just-saved project's path leaves what deleting it before the save would have left |
| Config.RemoveIdempotent | src/config.py:66 | deleting twice is deleting once |
| DI.Container.constructor | src/di_container.py:5-8 | a new container has no registrations, no cached singletons and nothing being resolved |
| DI.Container.Register | src/di_container.py:10-15 | registering replaces any earlier provider and singleton flag under the name and changes nothing else |
| DI.Container.Resolve | src/di_container.py:17-46 | a name being resolved is a cycle; a cached singleton is returned without invoking a provider; an unregistered name is not found; a registered value is returned as it is; a class without a constructor is built fresh with no arguments; past those cases an error can only come from a class whose constructor takes parameters, and such a class is built whenever each parameter is not being resolved and is cached or registered as a value, a factory or a class without a constructor; a not-found error names an unregistered name and a cycle error a name registered or already being resolved; otherwise the provider's product is returned and cached when singleton; a class whose constructor takes parameters receives at each position exactly what that parameter's name resolves to: the cached singleton when it is cached, otherwise a product of its provider; the set of names being resolved is restored; cached singletons are never changed; only singleton registrations are ever cached |
| DI.Container.ResolveClass | src/di_container.py:48-57 | a class without its own constructor is built with no arguments; otherwise a built instance has one argument per constructor parameter, each exactly what that parameter's name resolves to (the cached singleton when there is one, otherwise a product of its provider), none of them a name being resolved, and carries the next serial number; it is built whenever each parameter is not being resolved and is cached or registered as a value, a factory or a class without a constructor; a not-found error names an unregistered name and a cycle error a name registered or being resolved |
| DI.Container.ResolveAll | src/di_container.py:54-55 | a successful resolution gives one value per parameter, the value at each position the cached singleton for the name at that position when there is one and otherwise a product of its provider, and no name in the list being resolved; the list resolves whenever every name is not being resolved and is cached or registered as a value, a factory or a class without a constructor; a not-found error names an unregistered name and a cycle error a name registered or being resolved; cached singletons are never changed and only singleton registrations are newly cached |
| DI.ValueParameterResolves | src/di_container.py:47-55 | a class whose one constructor parameter is registered as a plain value resolves, built with that value as its only argument |
| DI.CachedParameterShared | src/di_container.py:22-23 | a factory singleton resolved once is made with the first serial number, and a class that later asks for it is built with that same cached instance, not a fresh product |
| DI.Container.Clear | src/di_container.py:59-63 | no registrations, no cached singletons and nothing being resolved afterwards |
| ExcludeValidation.InvalidMessage | src/gui_functions/validate_exclude_dir.py:13 | the message starts with its fixed head, holds the exclusion as typed, and ends with the joined path |
| ExcludeValidation.ValidateExcludeDir | src/gui_functions/validate_exclude_dir.py:5-14 | the result is `True` iff the joined path is a directory and starts with the project path as a string; otherwise the exception naming the exclusion and the joined path |
| ExcludeValidation.RelativeOnlyDirectoryMatters | src/gui_functions/validate_exclude_dir.py:10-12 | for a relative exclusion only the directory test decides |
| ExcludeValidation.AbsoluteJudgedAlone | src/gui_functions/validate_exclude_dir.py:10-12 | an absolute exclusion replaces the project path in the join and is judged on its own text |
| ExcludeValidation.SiblingWithSharedPrefixAccepted | src/gui_functions/validate_exclude_dir.py:12 | with project `/a/b`, the sibling `/a/bc` passes the prefix test |
| ExcludeValidation.EscapeWithDotDotAccepted | src/gui_functions/validate_exclude_dir.py:10-12 | `../x` is accepted when the directory exists, though it leaves the project |
| ExcludeValidation.OutsideAbsoluteRejected | src/gui_functions/validate_exclude_dir.py:12-13 | an absolute path not starting with the project text is always rejected |
| ExtensionHandling.Normalize | src/gui_functions/extension_handlers.py:11-18 | nothing is left exactly when the stripped input is empty; otherwise the result starts with a dot, ends with the stripped input, is the stripped input when that already starts with a dot, and adds at most one character |
| ExtensionHandling.NormalizeIdempotent | src/gui_functions/extension_handlers.py:11-18 | normalising a normalised extension changes nothing |
| ExtensionHandling.RemoveFirst | src/gui_functions/extension_handlers.py:98 | `list.remove` shortens the list by one |
| ExtensionHandling.RemoveFirstSplits | src/gui_functions/extension_handlers.py:98 | the first occurrence is the one removed; the entries before and after it keep their order |
| ExtensionHandling.RemoveFirstMultiset | src/gui_functions/extension_handlers.py:98 | exactly one copy of the extension goes and everything else stays |
| ExtensionHandling.FirstIndex | src/gui_functions/extension_handlers.py:98 | the position of the first occurrence |
| ExtensionHandling.RemoveFirstFromDistinct | src/gui_functions/extension_handlers.py:97-98 | removing from a duplicate-free list leaves a duplicate-free list without the extension |
| ExtensionHandling.ExtensionList.AddExtension | src/gui_functions/extension_handlers.py:6-25 | empty input is an error with the list unchanged; outside init mode a present extension is reported with the list unchanged and a new one is appended once at the end; in init mode the list never changes; a duplicate-free list stays duplicate-free |
| ExtensionHandling.ExtensionList.RemoveExtension | src/gui_functions/extension_handlers.py:92-102 | removal happens iff the extension is in the list, and then removes its first occurrence; otherwise the list is unchanged |
| ExtensionHandling.ExtensionList.InitializeExtensions | src/gui_functions/extension_handlers.py:115-121 | showing every extension in init mode leaves the list unchanged; each entry gets a tag showing its normalised form, or the empty-input error when it is only white space |
| ExtensionHandling.RoundedRectanglePoints | src/gui_functions/extension_handling.py:10-29 | forty alternating coordinates, starting at `(x1 + r, y1)` and ending at `(x1, y1)` |
| ExtensionHandling.VerticesOnBorder | src/gui_functions/extension_handling.py:10-29 | when the radius fits twice along each side, every point lies on the border of the rectangle |
| ExtensionHandling.DefaultRadiusCorners | src/gui_functions/extension_handling.py:6 | without a radius the outline starts 25 to the right of the top-left corner and ends on it |
| ExtensionHandling.TagBackgroundOnBorder | src/gui_functions/extension_handling.py:58 | the tag background drawn from (5, 5) to (75, 25) with radius 10 has every point on its border |

## Left out

- The bytes of the archive. `tarfile`, gzip, file contents and the partly written archive left behind when adding a file fails are not modelled. The archive is its path and its entry list.
- The real `os.walk` enumeration. The order of names within a directory is whatever the tree value lists. Symbolic links, permission errors during the walk, and changes to the filesystem while it is walked are not modelled.
- `os.path` on arbitrary strings in the packaging core. Paths are absolute, normalised segment sequences, and a joined exclusion is the project path followed by the exclusion's segments. An absolute exclusion, which `os.path.join` would substitute for the project path, is therefore not modelled in the walk. Neither are `.`/`..` segments in an exclusion or in the project path. Exclusion validation does model the string join, including the absolute case.
- Paths.RelPath: its contract states only that the result is non-empty; the exact value is proved for files below the start directory (`Paths.RelPathBelow`), the only case the packager uses.
- Case mapping and white space are narrower than Python's. `Text.Lower` maps only `A`–`Z`. `Text.Trim` strips only space, tab, newline, carriage return, vertical tab and form feed; `str.strip()` also strips the separators `\x1c`–`\x1f`, `\x85` and the Unicode spaces.
- The text of exceptions. `str(e)` in the packaging error message is represented by the path the failure concerns (`Packager.FailureText`).
- The Qt and Tk widgets, message boxes, `update_canvas`, label widths, and clearing the entry field. What a call shows the user is its result value (`AddOutcome`, a removal flag).
- The worker thread and result queue around `run_packaging`. The single queued tuple is the returned value.
- JSON reading and writing of `config.json`, and `export_config`. The file is a value: missing, or present with an optional project list. `resource_path` is not part of this model.
- A malformed `config.json` or a project record without `project_path` in `src/config.py`. Both raise in Python, and the model assumes well-formed records.
- The project path prompt and its `strip()` in `main.py`. The project is given as a path. The script path and the `/tmp` constant stand for `os.path.dirname(__file__)` and the output directory.
- The order produced by `list(set(...))`. `Cli.Dedupe` may pick any order, and `Cli.DedupeKeepsGather` shows the order does not affect the result.
- `SingletonMeta`, which makes `DIContainer()` a process-wide singleton. Its module is not part of this model.
- The `__code__` introspection in `_resolve_class`. A class provider carries its constructor parameter names, or none when it has no constructor of its own.
- Factories and class constructors that call back into the container, and exceptions they raise. A factory's result is a fresh instance numbered by `created`.
- A parameter name that is not registered makes `_resolve_class` raise `NotFound`. The model returns that error, and (as in Python) singletons cached before the failure stay cached.
- Parsing the rendered listing back into a tree. `FileTree.ListingOfBuild` instead counts the listing's lines against the distinct leading parts of the gathered paths, and `FileTree.EntryLayout` fixes the shape of each entry's lines.
- DI.Container.Resolve, DI.Container.ResolveClass, DI.Container.ResolveAll: success is promised when every constructor parameter resolves without entering another constructor with parameters; when a parameter is itself such a class, whether the whole resolution succeeds is not characterised further, and which error comes back is stated only as its kind and the name it carries.
- ExtensionHandling.RoundedRectanglePoints: the smoothing Tk applies to the polygon is not modelled; only the coordinate list and its placement on the rectangle's border are.

=== FILE: archive.dfy ===
/**
  The archive naming and entry list of `package_files`. The compressed bytes
  are not modelled: the archive is the sequence of entries `tar.add` writes,
  each an in-archive name and the file it was read from. Opening the output
  file and reading a source file are the two places the source can raise;
  they are given as a flag and a set of unreadable files.
 */
module Archive {
  import opened Wrappers
  import opened Paths
  import opened Seqs

  /** One `tar.add(file, arcname=...)`. */
  datatype Entry = Entry(arcname: Path, source: Path)

  /** The archive at `path` and what was added to it, in order. */
  datatype Archive = Archive(path: Path, entries: seq<Entry>)

  datatype ArchiveError = CannotCreate(path: Path) | CannotRead(file: Path)

  /** `os.path.join(output_dir, f"{project_name}.tar.gz")` with `project_name` the base name of the project. */
  function ArchivePath(project: Path, outputDir: Path): Path {
    outputDir + [Basename(project) + ".tar.gz"]
  }

  /** One entry per file, in the given order, each named by its path relative to the project. */
  function Entries(project: Path, files: seq<Path>): (r: seq<Entry>)
    ensures |r| == |files|
    ensures forall i :: 0 <= i < |files| ==> r[i] == Entry(RelPath(files[i], project), files[i])
  {
    seq(|files|, i requires 0 <= i < |files| => Entry(RelPath(files[i], project), files[i]))
  }

  predicate Below(project: Path, p: Path) {
    |project| < |p| && p[..|project|] == project
  }

  /**
    Extracting the archive under the project directory puts every entry back
    where it came from, and distinct files get distinct entry names.
   */
  lemma EntriesRoundTrip(project: Path, files: seq<Path>)
    requires forall f :: f in files ==> Below(project, f)
    ensures forall i :: 0 <= i < |files| ==> project + Entries(project, files)[i].arcname == files[i]
    ensures NoDuplicates(files) ==>
      forall i, j :: 0 <= i < j < |files| ==> Entries(project, files)[i].arcname != Entries(project, files)[j].arcname
  {
    forall i | 0 <= i < |files| ensures project + Entries(project, files)[i].arcname == files[i] {
      assert files[i] in files;
      RelPathBelow(files[i], project);
    }
  }

  /**
    `package_files(project_path, files, output_dir)`: open the archive at
    `<output_dir>/<basename>.tar.gz`, then add the files one by one; the first
    failure aborts the whole operation.
   */
  method PackageFiles(project: Path, files: seq<Path>, outputDir: Path, canCreate: bool, unreadable: set<Path>)
    returns (r: Result<Archive, ArchiveError>)
    ensures r.Ok? <==> canCreate && forall f :: f in files ==> f !in unreadable
    ensures r.Ok? ==> r.value == Archive(ArchivePath(project, outputDir), Entries(project, files))
    ensures !canCreate ==> r == Err(CannotCreate(ArchivePath(project, outputDir)))
    ensures canCreate && r.Err? ==>
      exists i :: 0 <= i < |files| && r.error == CannotRead(files[i])
        && files[i] in unreadable && forall j :: 0 <= j < i ==> files[j] !in unreadable
  {
    var outputPath := ArchivePath(project, outputDir);
    if !canCreate {
      return Err(CannotCreate(outputPath));
    }
    var entries := [];
    var i := 0;
    while i < |files|
      invariant 0 <= i <= |files|
      invariant entries == Entries(project, files[..i])
      invariant forall j :: 0 <= j < i ==> files[j] !in unreadable
    {
      if files[i] in unreadable {
        return Err(CannotRead(files[i]));
      }
      entries := entries + [Entry(RelPath(files[i], project), files[i])];
      i := i + 1;
    }
    assert files[..i] == files;
    return Ok(Archive(outputPath, entries));
  }
}

=== FILE: cli.dfy ===
/**
  The command-line packer (`main.py`): read the extensions and exclusions
  from its own `config.json`, ask for the project path and for extra
  exclusions until "done", deduplicate the exclusions, then gather, archive
  into `/tmp` and print the tree. It shares the walk, the archive naming and
  the tree with the packaging core; what is its own is the lowercasing of the
  configured extensions, the input loop, the deduplication and the order of
  its early exits. Console input is the sequence of lines typed after the
  project path; console output is the sequence of printed lines.
 */
module Cli {
  import opened Wrappers
  import opened Text
  import opened Paths
  import opened Seqs
  import Walk
  import Archive
  import FileTree
  import Packager

  /** The two keys `read_config` looks up, each possibly absent. */
  datatype ScriptConfig = ScriptConfig(fileExtensions: Option<seq<string>>, excludeDirs: Option<seq<string>>)

  /** `config.json` next to the script: unreadable (missing, or not JSON), or loaded. */
  datatype ConfigSource = Unreadable(reason: string) | Loaded(config: ScriptConfig)

  const ConfigErrorPrefix: string := "读取配置文件出错: "
  const NoExtensionsMessage: string := "配置文件中未找到文件后缀列表或配置文件为空。"

  /** `/tmp`, where the script always writes. */
  const OutputDir: Path := ["tmp"]

  function OrEmpty(o: Option<seq<string>>): seq<string> {
    match o
    case None => []
    case Some(xs) => xs
  }

  /** `[ext.lower() for ext in exts]`. */
  function LowerAll(exts: seq<string>): (r: seq<string>)
    ensures |r| == |exts|
    ensures forall i :: 0 <= i < |exts| ==> r[i] == Lower(exts[i])
  {
    seq(|exts|, i requires 0 <= i < |exts| => Lower(exts[i]))
  }

  /**
    `read_config(script_path)`: the configured extensions lowercased and the
    configured exclusions, a missing key counting as empty; `([], [])` when
    the file cannot be read.
   */
  function ReadConfig(src: ConfigSource): (r: (seq<string>, seq<string>))
    ensures src.Unreadable? ==> r == ([], [])
    ensures src.Loaded? ==> r.0 == LowerAll(OrEmpty(src.config.fileExtensions))
    ensures src.Loaded? ==> r.1 == OrEmpty(src.config.excludeDirs)
    ensures forall e :: e in r.0 ==> !HasUpper(e)
  {
    match src
    case Unreadable(_) => ([], [])
    case Loaded(c) => (LowerAll(OrEmpty(c.fileExtensions)), OrEmpty(c.excludeDirs))
  }

  /**
    Because the configured extensions are lowercased, matching becomes
    case-insensitive on both sides: a file matches exactly when its
    lowercased name ends with the lowercase of some configured extension.
   */
  lemma CaseInsensitiveMatching(file: string, exts: seq<string>)
    ensures Walk.Matches(file, LowerAll(exts)) <==> exists e :: e in exts && EndsWith(Lower(file), Lower(e))
  {
    var low := LowerAll(exts);
    if Walk.Matches(file, low) {
      var e' :| e' in low && EndsWith(Lower(file), e');
      var i :| 0 <= i < |low| && low[i] == e';
      assert exts[i] in exts;
    }
    if exists e :: e in exts && EndsWith(Lower(file), Lower(e)) {
      var e :| e in exts && EndsWith(Lower(file), Lower(e));
      var i :| 0 <= i < |exts| && exts[i] == e;
      assert low[i] in low;
    }
  }

  // ---------------------------------------------------------------------
  // The exclusion prompt

  /** A line that ends the prompt: "done" in any case, surrounding whitespace ignored. */
  predicate IsDone(line: string) {
    Lower(Trim(line)) == "done"
  }

  /** The position of the first line that ends the prompt, if any. */
  function DoneIndex(lines: seq<string>): (r: Option<nat>)
    ensures r.Some? ==> r.value < |lines|
  {
    FirstWhere(lines, IsDone)
  }

  /** The stripped lines typed before the first "done". */
  function Entered(lines: seq<string>, d: nat): (r: seq<string>)
    requires d <= |lines|
    ensures |r| == d
    ensures forall j :: 0 <= j < d ==> r[j] == Trim(lines[j])
  {
    seq(d, j requires 0 <= j < d => Trim(lines[j]))
  }

  /** One more line typed before "done" is one more entry, appended. */
  lemma EnteredStep(configured: seq<string>, lines: seq<string>, i: nat)
    requires i < |lines|
    ensures configured + Entered(lines, i + 1) == (configured + Entered(lines, i)) + [Trim(lines[i])]
  {
    var a, b := Entered(lines, i + 1), Entered(lines, i) + [Trim(lines[i])];
    assert |a| == |b|;
    forall j | 0 <= j < |a| ensures a[j] == b[j] {
      if j < i {
        assert b[j] == Entered(lines, i)[j];
      }
    }
    assert a == b;
  }

  /** What the prompt collects: the configured exclusions, then every line typed before "done". */
  function Collected(configured: seq<string>, lines: seq<string>): Option<seq<string>> {
    match DoneIndex(lines)
    case None => None
    case Some(d) => Some(configured + Entered(lines, d))
  }

  /** Nothing the prompt collects from the keyboard is a "done" line. */
  lemma CollectedHasNoDone(configured: seq<string>, lines: seq<string>)
    requires Collected(configured, lines).Some?
    ensures var xs := Collected(configured, lines).value;
      forall j :: |configured| <= j < |xs| ==> Lower(xs[j]) != "done"
  {
    var d := DoneIndex(lines).value;
    FirstWhereFound(lines, IsDone);
    var xs := Collected(configured, lines).value;
    forall j | |configured| <= j < |xs| ensures Lower(xs[j]) != "done" {
      assert xs[j] == Trim(lines[j - |configured|]);
      assert !IsDone(lines[j - |configured|]);
    }
  }

  /**
    The `while True` prompt: each line is stripped; a "done" line ends it,
    every other line is appended. Running out of input (`EOFError`) is `None`.
   */
  method ReadExclusions(configured: seq<string>, lines: seq<string>) returns (r: Option<seq<string>>)
    ensures r == Collected(configured, lines)
  {
    var excludes := configured;
    var i := 0;
    while i < |lines|
      invariant 0 <= i <= |lines|
      invariant forall j :: 0 <= j < i ==> !IsDone(lines[j])
      invariant excludes == configured + Entered(lines, i)
    {
      var line := Trim(lines[i]);
      if Lower(line) == "done" {
        var d := DoneIndex(lines);
        assert d == Some(i) by {
          FirstWhereAt(lines, IsDone, i);
        }
        return Some(excludes);
      }
      EnteredStep(configured, lines, i);
      excludes := excludes + [line];
      i := i + 1;
    }
    FirstWhereNone(lines, IsDone);
    return None;
  }

  /**
    `list(set(exclude_dirs))`: every exclusion once, in whatever order the set
    yields them.
   */
  method Dedupe(xs: seq<string>) returns (ys: seq<string>)
    ensures NoDuplicates(ys)
    ensures forall x :: x in ys <==> x in xs
  {
    var remaining := set x | x in xs;
    ys := [];
    while remaining != {}
      invariant forall x :: x in xs <==> x in ys || x in remaining
      invariant forall y :: y in ys ==> y !in remaining
      invariant NoDuplicates(ys)
      decreases |remaining|
    {
      var x :| x in remaining;
      NoDuplicatesAppend(ys, [x]);
      ys := ys + [x];
      remaining := remaining - {x};
    }
  }

  /** The full exclusion paths only depend on which exclusions there are. */
  lemma ExcludeFullSameSet(project: Path, xs: seq<string>, ys: seq<string>)
    requires forall x :: x in ys <==> x in xs
    ensures (set q | q in Walk.ExcludeFull(project, xs)) == (set q | q in Walk.ExcludeFull(project, ys))
  {
    var fx, fy := Walk.ExcludeFull(project, xs), Walk.ExcludeFull(project, ys);
    forall q | q in fx ensures q in fy {
      var i :| 0 <= i < |fx| && fx[i] == q;
      assert xs[i] in ys;
      var k :| 0 <= k < |ys| && ys[k] == xs[i];
      assert fy[k] == q;
    }
    forall q | q in fy ensures q in fx {
      var i :| 0 <= i < |fy| && fy[i] == q;
      assert ys[i] in xs;
      var k :| 0 <= k < |xs| && xs[k] == ys[i];
      assert fx[k] == q;
    }
  }

  /** Deduplicating the exclusions, in any order, leaves the gathered files as they were. */
  lemma DedupeKeepsGather(project: Path, tree: Walk.Dir, extensions: seq<string>, xs: seq<string>, ys: seq<string>)
    requires forall x :: x in ys <==> x in xs
    ensures Walk.Gather(project, tree, extensions, Walk.ExcludeFull(project, ys))
         == Walk.Gather(project, tree, extensions, Walk.ExcludeFull(project, xs))
  {
    ExcludeFullSameSet(project, xs, ys);
    Walk.ExclusionOrderIrrelevant(project, tree, extensions, Walk.ExcludeFull(project, ys), Walk.ExcludeFull(project, xs));
  }

  // ---------------------------------------------------------------------
  // main()

  /** How a run of the script ends. */
  datatype Outcome =
    | NoExtensions                                // returned before asking for the project
    | InputEnded                                  // `EOFError` at the exclusion prompt
    | NothingToPackage                            // returned after the "no files" message
    | ArchiveCrashed(archive: Archive.ArchiveError)  // uncaught exception while archiving
    | TreeCrashed(tree: FileTree.TreeError)       // uncaught exception while printing the tree
    | Packaged(path: Path)

  /** The line `read_config` prints when the file cannot be read. */
  function ConfigNotes(src: ConfigSource): seq<string> {
    match src
    case Unreadable(reason) => [ConfigErrorPrefix + reason]
    case Loaded(_) => []
  }

  /** The files the script packs, stated with the exclusions before deduplication. */
  function ScriptFiles(src: ConfigSource, project: Path, lines: seq<string>, tree: Walk.Dir): seq<Path>
    requires Collected(ReadConfig(src).1, lines).Some?
  {
    Walk.Gather(project, tree, ReadConfig(src).0, Walk.ExcludeFull(project, Collected(ReadConfig(src).1, lines).value))
  }

  /**
    `main()` with the project path already read: the printed lines and how the
    run ends. With no configured extensions it stops before any prompt; it
    packs only when the prompt was ended by "done" and something was
    gathered; on success it prints where the archive is, a header, and the
    tree lines.
   */
  method RunScript(src: ConfigSource, project: Path, lines: seq<string>, tree: Walk.Dir,
                   canCreate: bool, unreadable: set<Path>)
    returns (printed: seq<string>, outcome: Outcome)
    ensures outcome == NoExtensions <==> ReadConfig(src).0 == []
    ensures outcome == NoExtensions ==> printed == ConfigNotes(src) + [NoExtensionsMessage]
    ensures outcome == InputEnded <==> ReadConfig(src).0 != [] && DoneIndex(lines).None?
    ensures outcome == InputEnded ==> printed == []
    ensures outcome == NothingToPackage <==>
      ReadConfig(src).0 != [] && DoneIndex(lines).Some? && ScriptFiles(src, project, lines, tree) == []
    ensures outcome == NothingToPackage ==> printed == [Packager.NoFilesMessage]
    ensures outcome.Packaged? ==>
      && ReadConfig(src).0 != [] && DoneIndex(lines).Some?
      && var files := ScriptFiles(src, project, lines, tree);
      && files != [] && canCreate && (forall f :: f in files ==> f !in unreadable)
      && FileTree.Build(files, project).Ok? && FileTree.Build(files, project).value.Branch?
      && outcome.path == Archive.ArchivePath(project, OutputDir)
      && printed == [Packager.CreatedPrefix + Display(outcome.path), Packager.ListingTitle]
                    + FileTree.LinesFrom(FileTree.Build(files, project).value.items, 0, "")
    ensures outcome.Packaged? <==>
      && ReadConfig(src).0 != [] && DoneIndex(lines).Some?
      && var files := ScriptFiles(src, project, lines, tree);
      && files != [] && canCreate && (forall f :: f in files ==> f !in unreadable)
      && FileTree.Build(files, project).Ok?
    ensures outcome.ArchiveCrashed? <==>
      && ReadConfig(src).0 != [] && DoneIndex(lines).Some?
      && var files := ScriptFiles(src, project, lines, tree);
      && files != [] && (!canCreate || exists f :: f in files && f in unreadable)
    ensures outcome.ArchiveCrashed? ==> printed == []
    ensures Walk.WellFormed(tree) ==> !outcome.TreeCrashed?
  {
    printed := ConfigNotes(src);
    var config := ReadConfig(src);
    var extensions, configured := config.0, config.1;
    if extensions == [] {
      printed := printed + [NoExtensionsMessage];
      return printed, NoExtensions;
    }
    var collected := ReadExclusions(configured, lines);
    if collected.None? {
      return printed, InputEnded;
    }
    var excludes := Dedupe(collected.value);
    DedupeKeepsGather(project, tree, extensions, collected.value, excludes);
    var files := Walk.GatherFiles(project, tree, extensions, excludes);
    if files == [] {
      printed := printed + [Packager.NoFilesMessage];
      return printed, NothingToPackage;
    }
    if Walk.WellFormed(tree) {
      Packager.GatheredFilesBuild(project, tree, extensions, Walk.ExcludeFull(project, excludes));
    }
    printed, outcome := PackAndList(project, files, canCreate, unreadable);
  }

  /**
    The part of `main()` after a non-empty gather: archive into `/tmp`, print
    where the archive is and the header, then the tree lines.
   */
  method PackAndList(project: Path, files: seq<Path>, canCreate: bool, unreadable: set<Path>)
    returns (printed: seq<string>, outcome: Outcome)
    ensures !outcome.NoExtensions? && !outcome.InputEnded? && !outcome.NothingToPackage?
    ensures outcome.Packaged? <==>
      canCreate && (forall f :: f in files ==> f !in unreadable) && FileTree.Build(files, project).Ok?
    ensures outcome.Packaged? ==>
      && FileTree.Build(files, project).value.Branch?
      && outcome.path == Archive.ArchivePath(project, OutputDir)
      && printed == [Packager.CreatedPrefix + Display(outcome.path), Packager.ListingTitle]
                    + FileTree.LinesFrom(FileTree.Build(files, project).value.items, 0, "")
    ensures outcome.ArchiveCrashed? <==> !canCreate || exists f :: f in files && f in unreadable
    ensures outcome.ArchiveCrashed? ==> printed == []
    ensures outcome.TreeCrashed? ==> FileTree.Build(files, project).Err?
  {
    var archived := Archive.PackageFiles(project, files, OutputDir, canCreate, unreadable);
    if archived.Err? {
      return [], ArchiveCrashed(archived.error);
    }
    var outputPath := archived.value.path;
    printed := [Packager.CreatedPrefix + Display(outputPath), Packager.ListingTitle];
    var built := FileTree.BuildTree(files, project);
    if built.Err? {
      return printed, TreeCrashed(built.error);
    }
    FileTree.BuildPaths(files, project);
    printed := FileTree.PrintDict(built.value.items, "", printed);
    return printed, Packaged(outputPath);
  }
}

=== FILE: config.dfy ===
/**
  The project list kept in `config.json`. The file is a value: either missing,
  or present with an optional "projects" entry. Reading and writing JSON is not
  modelled; each operation takes the file as it is and returns the file as it
  is left.
 */
module Config {
  import opened Wrappers

  /** One entry of the "projects" list. */
  datatype Project = Project(projectPath: string, fileExtensions: seq<string>, excludeDirs: seq<string>)

  /** `config.json`: absent, or a document whose "projects" key may be missing. */
  datatype ConfigFile = Missing | Present(projects: Option<seq<Project>>)

  /** `get_default_config()["projects"]`. */
  function DefaultProjects(): (r: seq<Project>)
    ensures |r| == 1
    ensures r[0].fileExtensions == [".py"] && r[0].excludeDirs == ["__pycache__"]
    ensures r[0].projectPath == "change_project_path_here"
  {
    [Project("change_project_path_here", [".py"], ["__pycache__"])]
  }

  /** `existing_config.get("projects", [])`, a missing file counting as `{"projects": []}`. */
  function Stored(f: ConfigFile): seq<Project> {
    match f
    case Missing => []
    case Present(None) => []
    case Present(Some(ps)) => ps
  }

  /**
    `read_config()`: a missing file is created holding the default document
    and the default list is returned; otherwise the stored list (empty when
    the key is absent) and the file is left alone.
   */
  function ReadConfig(f: ConfigFile): (r: (seq<Project>, ConfigFile))
    ensures f.Missing? ==> r.0 == DefaultProjects() && r.1 == Present(Some(DefaultProjects()))
    ensures f.Present? ==> r.0 == Stored(f) && r.1 == f
  {
    match f
    case Missing => (DefaultProjects(), Present(Some(DefaultProjects())))
    case Present(_) => (Stored(f), f)
  }

  /** Reading a second time returns what the first read returned. */
  lemma ReadConfigStable(f: ConfigFile)
    ensures ReadConfig(ReadConfig(f).1) == (ReadConfig(f).0, ReadConfig(f).1)
  {
  }

  // ---------------------------------------------------------------------
  // save_config: upsert keyed by project_path

  /** The index of the first entry with path `path`, if any. */
  function FirstMatch(ps: seq<Project>, path: string): (r: Option<nat>)
    ensures r.Some? ==> r.value < |ps| && ps[r.value].projectPath == path
    ensures r.Some? ==> forall j :: 0 <= j < r.value ==> ps[j].projectPath != path
    ensures r.None? ==> forall j :: 0 <= j < |ps| ==> ps[j].projectPath != path
  {
    if ps == [] then None
    else if ps[0].projectPath == path then Some(0)
    else
      match FirstMatch(ps[1..], path)
      case None => None
      case Some(i) => Some(i + 1)
  }

  /** The list `save_config` writes: the first entry with the same path replaced, or the project appended. */
  function Upsert(ps: seq<Project>, p: Project): seq<Project> {
    match FirstMatch(ps, p.projectPath)
    case Some(i) => ps[i := p]
    case None => ps + [p]
  }

  /**
    `save_config(project)`: the for/else over the stored list, replacing the
    first entry with the same `project_path` in place, or appending when the
    loop finds none; the file is present afterwards.
   */
  method SaveConfig(f: ConfigFile, project: Project) returns (r: ConfigFile)
    ensures r == Present(Some(Upsert(Stored(f), project)))
  {
    var projects := Stored(f);
    var i := 0;
    var found := false;
    while i < |projects|
      invariant 0 <= i <= |projects|
      invariant forall j :: 0 <= j < i ==> Stored(f)[j].projectPath != project.projectPath
      invariant !found && projects == Stored(f)
    {
      if projects[i].projectPath == project.projectPath {
        FirstMatchAt(projects, project.projectPath, i);
        projects := projects[i := project];
        found := true;
        break;
      }
      i := i + 1;
    }
    if !found {
      projects := projects + [project];
    }
    return Present(Some(projects));
  }

  /** With a match: the length is kept, the first match is replaced and every other entry is untouched. */
  lemma UpsertReplacesFirst(ps: seq<Project>, p: Project, i: nat)
    requires i < |ps| && ps[i].projectPath == p.projectPath
    requires forall j :: 0 <= j < i ==> ps[j].projectPath != p.projectPath
    ensures |Upsert(ps, p)| == |ps|
    ensures Upsert(ps, p)[i] == p
    ensures forall j :: 0 <= j < |ps| && j != i ==> Upsert(ps, p)[j] == ps[j]
  {
    FirstMatchAt(ps, p.projectPath, i);
  }

  /** Without a match: the project is appended at the end. */
  lemma UpsertAppends(ps: seq<Project>, p: Project)
    requires forall q :: q in ps ==> q.projectPath != p.projectPath
    ensures Upsert(ps, p) == ps + [p]
  {
    forall j | 0 <= j < |ps| ensures ps[j].projectPath != p.projectPath {
      assert ps[j] in ps;
    }
  }

  /** Saving to a missing file gives a one-entry list. */
  lemma SaveToMissing(p: Project)
    ensures Stored(Present(Some(Upsert(Stored(Missing), p)))) == [p]
  {
  }

  /** After a save, looking the path up finds the saved project. */
  lemma {:induction false} UpsertFindable(ps: seq<Project>, p: Project)
    ensures FirstMatch(Upsert(ps, p), p.projectPath).Some?
    ensures Upsert(ps, p)[FirstMatch(Upsert(ps, p), p.projectPath).value] == p
  {
    var r := Upsert(ps, p);
    match FirstMatch(ps, p.projectPath)
    case Some(i) =>
      UpsertReplacesFirst(ps, p, i);
      FirstMatchAt(r, p.projectPath, i);
    case None =>
      FirstMatchAt(r, p.projectPath, |ps|);
  }

  lemma {:induction false} FirstMatchAt(ps: seq<Project>, path: string, i: nat)
    requires i < |ps| && ps[i].projectPath == path
    requires forall j :: 0 <= j < i ==> ps[j].projectPath != path
    ensures FirstMatch(ps, path) == Some(i)
  {
    if i > 0 {
      assert ps[0].projectPath != path;
      FirstMatchAt(ps[1..], path, i - 1);
    }
  }

  /** Saving the same project twice writes the same list as saving it once. */
  lemma UpsertIdempotent(ps: seq<Project>, p: Project)
    ensures Upsert(Upsert(ps, p), p) == Upsert(ps, p)
  {
    var r := Upsert(ps, p);
    UpsertFindable(ps, p);
    var i := FirstMatch(r, p.projectPath).value;
    assert r[i := p] == r;
  }

  // ---------------------------------------------------------------------
  // delete_config: filter by project_path

  /** `[proj for proj in projects if proj["project_path"] != project_path]`. */
  function Remove(ps: seq<Project>, path: string): (r: seq<Project>)
    ensures |r| <= |ps|
    ensures forall q :: q in r <==> q in ps && q.projectPath != path
  {
    if ps == [] then []
    else if ps[0].projectPath == path then Remove(ps[1..], path)
    else [ps[0]] + Remove(ps[1..], path)
  }

  /** `delete_config(project_path)`: nothing happens without a file; otherwise the filtered list is written. */
  function DeleteConfig(f: ConfigFile, path: string): (r: ConfigFile)
    ensures f.Missing? ==> r == Missing
    ensures f.Present? ==> r == Present(Some(Remove(Stored(f), path)))
  {
    match f
    case Missing => Missing
    case Present(_) => Present(Some(Remove(Stored(f), path)))
  }

  /** The filter keeps the surviving entries in their original order: it distributes over concatenation. */
  lemma {:induction false} RemoveAppend(a: seq<Project>, b: seq<Project>, path: string)
    ensures Remove(a + b, path) == Remove(a, path) + Remove(b, path)
  {
    if a == [] {
      assert a + b == b;
    } else {
      assert (a + b)[0] == a[0];
      assert (a + b)[1..] == a[1..] + b;
      RemoveAppend(a[1..], b, path);
    }
  }

  /** Nothing with a different path is removed. */
  lemma {:induction false} RemoveKeepsOthers(ps: seq<Project>, path: string)
    requires forall q :: q in ps ==> q.projectPath != path
    ensures Remove(ps, path) == ps
  {
    if ps != [] {
      assert ps[0] in ps;
      RemoveKeepsOthers(ps[1..], path);
    }
  }

  /** Deleting the path of a project just saved leaves what deleting it would have left before the save. */
  lemma DeleteUndoesSave(ps: seq<Project>, p: Project)
    ensures Remove(Upsert(ps, p), p.projectPath) == Remove(ps, p.projectPath)
  {
    match FirstMatch(ps, p.projectPath)
    case None =>
      RemoveAppend(ps, [p], p.projectPath);
    case Some(i) =>
      var r := ps[i := p];
      assert ps == ps[..i] + [ps[i]] + ps[i + 1..];
      assert r == ps[..i] + [p] + ps[i + 1..];
      RemoveAppend(ps[..i] + [ps[i]], ps[i + 1..], p.projectPath);
      RemoveAppend(ps[..i], [ps[i]], p.projectPath);
      RemoveAppend(ps[..i] + [p], ps[i + 1..], p.projectPath);
      RemoveAppend(ps[..i], [p], p.projectPath);
  }

  /** Deleting twice is deleting once. */
  lemma RemoveIdempotent(ps: seq<Project>, path: string)
    ensures Remove(Remove(ps, path), path) == Remove(ps, path)
  {
    RemoveKeepsOthers(Remove(ps, path), path);
  }
}

=== FILE: di_container.dfy ===
/**
  `DIContainer`: registrations, a singleton cache and the set of names being
  resolved, updated in place. Providers are abstract: a plain value returned
  as is, a factory (any callable), or a class whose constructor takes the
  listed parameter names (`None` when the class has no `__init__` of its
  own). Instances a factory or a class produces are told apart by a serial
  number, the count of instances produced before them (`created`).
 */
module DI {
  import opened Wrappers

  type Name = string

  /** A value a resolve can return. */
  datatype Instance =
    | Plain(tag: int)
    | Made(factory: nat, serial: nat)
    | Built(cls: nat, args: seq<Instance>, serial: nat)

  datatype Provider =
    | Value(instance: Instance)
    | Factory(id: nat)
    | ClassProvider(id: nat, init: Option<seq<Name>>)

  /** `{"provider": provider, "singleton": singleton}`. */
  datatype Registration = Registration(provider: Provider, singleton: bool)

  /** The two `ValueError`s `resolve` raises. */
  datatype DIError = Circular(name: Name) | NotFound(name: Name)

  function Message(e: DIError): string {
    match e
    case Circular(n) => "Circular dependency detected for '" + n + "'"
    case NotFound(n) => "Dependency '" + n + "' not found in DIContainer"
  }

  /** `v` is what invoking provider `p` can give: the value itself, or a fresh product of that factory or class. */
  predicate Produced(p: Provider, v: Instance) {
    match p
    case Value(x) => v == x
    case Factory(id) => v.Made? && v.factory == id
    case ClassProvider(id, init) =>
      && v.Built? && v.cls == id
      && (init.None? ==> v.args == [])
      && (init.Some? ==> |v.args| == |init.value|)
  }

  /**
    `v` is what `resolve(name)` gives with registrations `deps` and cache
    `cache`: the cached singleton when there is one, otherwise a product of
    the registered provider.
   */
  predicate Answers(deps: map<Name, Registration>, cache: map<Name, Instance>, name: Name, v: Instance) {
    if name in cache then cache[name] == v
    else name in deps && Produced(deps[name].provider, v)
  }

  /**
    An answer no later caching can overturn: either it is the cached value,
    or it came from a registration that is not a singleton and so is never
    cached.
   */
  predicate Settled(deps: map<Name, Registration>, cache: map<Name, Instance>, name: Name, v: Instance) {
    && Answers(deps, cache, name, v)
    && (name !in cache ==> !deps[name].singleton)
  }

  /**
    `n` resolves without entering a class constructor that takes parameters:
    it is not being resolved, and it is cached or it is registered with a
    value, a factory or a class without a constructor of its own.
   */
  predicate Direct(deps: map<Name, Registration>, cache: map<Name, Instance>, busy: set<Name>, n: Name) {
    && n !in busy
    && (n in cache || (n in deps && !(deps[n].provider.ClassProvider? && deps[n].provider.init.Some?)))
  }

  /** The first `|vals|` names, none of them in `busy`, are answered by `vals`, each answer settled. */
  predicate AllSettled(deps: map<Name, Registration>, cache: map<Name, Instance>, busy: set<Name>,
                       names: seq<Name>, vals: seq<Instance>) {
    && |vals| <= |names|
    && forall j :: 0 <= j < |vals| ==> names[j] !in busy && Settled(deps, cache, names[j], vals[j])
  }

  /**
    Settled answers stay settled while the cache grows by singletons only,
    so a list of them extended by one settled for the grown cache stays
    settled.
   */
  lemma SettledExtended(deps: map<Name, Registration>, c1: map<Name, Instance>, c2: map<Name, Instance>, busy: set<Name>,
                        names: seq<Name>, vals: seq<Instance>, v: Instance)
    requires |vals| < |names|
    requires forall k :: k in c1 ==> k in c2 && c2[k] == c1[k]
    requires forall k :: k in c2 && k !in c1 ==> k in deps && deps[k].singleton
    requires AllSettled(deps, c1, busy, names, vals)
    requires names[|vals|] !in busy && Settled(deps, c2, names[|vals|], v)
    ensures AllSettled(deps, c2, busy, names, vals + [v])
  {
    forall j | 0 <= j < |vals| + 1
      ensures Settled(deps, c2, names[j], (vals + [v])[j])
    {
      if j < |vals| {
        assert Settled(deps, c1, names[j], vals[j]);
      }
    }
  }

  /** Storing `name` in the cache leaves the answers for every other name as they were. */
  lemma AnswersAfterStore(deps: map<Name, Registration>, c1: map<Name, Instance>, c2: map<Name, Instance>,
                          name: Name, names: seq<Name>, vals: seq<Instance>)
    requires |vals| == |names| && forall i :: 0 <= i < |names| ==> names[i] != name
    requires forall k :: k != name ==> (k in c1 <==> k in c2)
    requires forall k :: k != name && k in c1 ==> c2[k] == c1[k]
    requires forall i :: 0 <= i < |vals| ==> Answers(deps, c1, names[i], vals[i])
    ensures forall i :: 0 <= i < |vals| ==> Answers(deps, c2, names[i], vals[i])
  {
  }

  /** A cache grown twice, each time only by singleton registrations outside `busy`, has grown that way once. */
  lemma CacheGrowsTwice(deps: map<Name, Registration>, busy: set<Name>,
                        c1: map<Name, Instance>, c2: map<Name, Instance>, c3: map<Name, Instance>)
    requires forall k :: k in c1 ==> k in c2 && c2[k] == c1[k]
    requires forall k :: k in c2 && k !in c1 ==> k !in busy && k in deps && deps[k].singleton
    requires forall k :: k in c2 ==> k in c3 && c3[k] == c2[k]
    requires forall k :: k in c3 && k !in c2 ==> k !in busy && k in deps && deps[k].singleton
    ensures forall k :: k in c1 ==> k in c3 && c3[k] == c1[k]
    ensures forall k :: k in c3 && k !in c1 ==> k !in busy && k in deps && deps[k].singleton
  {
  }

  class Container {
    var dependencies: map<Name, Registration>
    var singletons: map<Name, Instance>
    var resolving: set<Name>
    var created: nat

    constructor ()
      ensures dependencies == map[] && singletons == map[] && resolving == {} && created == 0
    {
      dependencies := map[];
      singletons := map[];
      resolving := {};
      created := 0;
    }

    /** Names that can still be entered by a nested resolve: registered and not already being resolved. */
    function Budget(): nat
      reads this
    {
      |dependencies.Keys - resolving|
    }

    /** `v` is a legitimate answer for `name` now: its cached singleton, or a product of its provider. */
    predicate ResolvedAs(name: Name, v: Instance)
      reads this
    {
      Answers(dependencies, singletons, name, v)
    }

    /**
      `register(name, provider, singleton)`: replaces any earlier registration
      of the name. A singleton already cached under the name stays cached.
     */
    method Register(name: Name, provider: Provider, singleton: bool)
      modifies this
      ensures dependencies == old(dependencies)[name := Registration(provider, singleton)]
      ensures singletons == old(singletons) && resolving == old(resolving) && created == old(created)
    {
      dependencies := dependencies[name := Registration(provider, singleton)];
    }

    /**
      `resolve(name)`: a name already being resolved is a cycle; a cached
      singleton is returned without calling its provider; an unregistered
      name is not found; otherwise the provider is invoked and, for a
      singleton, the result is cached. The set of names being resolved is
      the same afterwards, whether the call succeeds or fails.
     */
    method Resolve(name: Name) returns (r: Result<Instance, DIError>)
      modifies this
      decreases Budget(), 0
      ensures dependencies == old(dependencies) && resolving == old(resolving)
      ensures created >= old(created)
      ensures forall k :: k in old(singletons) ==> k in singletons && singletons[k] == old(singletons)[k]
      ensures forall k :: k in singletons && k !in old(singletons) ==>
        k !in old(resolving) && k in dependencies && dependencies[k].singleton
      ensures name in old(resolving) ==>
        r == Err(Circular(name)) && singletons == old(singletons) && created == old(created)
      ensures name !in old(resolving) && name in old(singletons) ==>
        r == Ok(old(singletons)[name]) && singletons == old(singletons) && created == old(created)
      ensures name !in old(resolving) && name !in old(singletons) && name !in dependencies ==>
        r == Err(NotFound(name)) && singletons == old(singletons) && created == old(created)
      ensures name !in old(resolving) && name !in old(singletons) && name in dependencies && r.Ok? ==>
        Produced(dependencies[name].provider, r.value)
      ensures name !in old(resolving) && name !in old(singletons) && name in dependencies ==>
        match dependencies[name].provider
        case Factory(id) => r == Ok(Made(id, old(created))) && created == old(created) + 1
        case Value(v) => r == Ok(v) && created == old(created)
        case ClassProvider(id, None) => r == Ok(Built(id, [], old(created))) && created == old(created) + 1
        case ClassProvider(_, Some(ps)) =>
          && ((forall n :: n in ps ==> Direct(dependencies, old(singletons), old(resolving) + {name}, n)) ==> r.Ok?)
          && (r.Ok? ==> && r.value.Built? && |r.value.args| == |ps|
                        && forall i :: 0 <= i < |ps| ==> ResolvedAs(ps[i], r.value.args[i]))
      ensures r.Err? && name !in old(resolving) && name !in old(singletons) && name in dependencies ==>
        dependencies[name].provider.ClassProvider? && dependencies[name].provider.init.Some?
      ensures r.Err? && r.error.NotFound? ==> r.error.name !in dependencies
      ensures r.Err? && r.error.Circular? ==> r.error.name in resolving || r.error.name in dependencies
      ensures r.Ok? ==> ResolvedAs(name, r.value)
      ensures r.Ok? && name in dependencies && dependencies[name].singleton ==>
        name in singletons && singletons[name] == r.value
    {
      if name in resolving {
        return Err(Circular(name));
      }
      if name in singletons {
        return Ok(singletons[name]);
      }
      resolving := resolving + {name};
      if name !in dependencies {
        resolving := resolving - {name};
        return Err(NotFound(name));
      }
      assert (dependencies.Keys - resolving) + {name} == dependencies.Keys - old(resolving);
      var reg := dependencies[name];
      var instance: Instance;
      match reg.provider {
        case ClassProvider(id, init) =>
          var built := ResolveClass(id, init);
          if built.Err? {
            resolving := resolving - {name};
            return Err(built.error);
          }
          assert name !in singletons;
          instance := built.value;
        case Factory(id) =>
          instance := Made(id, created);
          created := created + 1;
        case Value(v) =>
          instance := v;
      }
      if reg.singleton {
        ghost var cache := singletons;
        singletons := singletons[name := instance];
        if reg.provider.ClassProvider? && reg.provider.init.Some? {
          AnswersAfterStore(dependencies, cache, singletons, name, reg.provider.init.value, instance.args);
        }
      }
      resolving := resolving - {name};
      return Ok(instance);
    }

    /**
      `_resolve_class(cls)`: a class without its own constructor is built with
      no arguments; otherwise its constructor parameters are resolved by name
      and the results are passed positionally.
     */
    method ResolveClass(id: nat, init: Option<seq<Name>>) returns (r: Result<Instance, DIError>)
      modifies this
      decreases Budget(), 2
      ensures dependencies == old(dependencies) && resolving == old(resolving)
      ensures created >= old(created)
      ensures forall k :: k in old(singletons) ==> k in singletons && singletons[k] == old(singletons)[k]
      ensures forall k :: k in singletons && k !in old(singletons) ==>
        k !in old(resolving) && k in dependencies && dependencies[k].singleton
      ensures init.None? ==> r == Ok(Built(id, [], old(created))) && created == old(created) + 1
      ensures init.Some? && (forall n :: n in init.value ==> Direct(dependencies, old(singletons), resolving, n)) ==>
        r.Ok?
      ensures r.Err? && r.error.NotFound? ==> r.error.name !in dependencies
      ensures r.Err? && r.error.Circular? ==> r.error.name in resolving || r.error.name in dependencies
      ensures r.Ok? ==> Produced(ClassProvider(id, init), r.value)
      ensures r.Ok? && init.Some? ==>
        && r.value.serial == created - 1
        && (forall i :: 0 <= i < |init.value| ==> ResolvedAs(init.value[i], r.value.args[i]))
        && forall i :: 0 <= i < |init.value| ==> init.value[i] !in resolving
    {
      if init.None? {
        r := Ok(Built(id, [], created));
        created := created + 1;
        return;
      }
      var args := ResolveAll(init.value);
      if args.Err? {
        return Err(args.error);
      }
      r := Ok(Built(id, args.value, created));
      created := created + 1;
    }

    /**
      The list of constructor arguments: each name resolved in order; the
      first failure is the failure of the whole list.
     */
    method ResolveAll(params: seq<Name>) returns (r: Result<seq<Instance>, DIError>)
      modifies this
      decreases Budget(), 1
      ensures dependencies == old(dependencies) && resolving == old(resolving)
      ensures created >= old(created)
      ensures forall k :: k in old(singletons) ==> k in singletons && singletons[k] == old(singletons)[k]
      ensures forall k :: k in singletons && k !in old(singletons) ==>
        k !in old(resolving) && k in dependencies && dependencies[k].singleton
      ensures r.Ok? ==> |r.value| == |params| && forall i :: 0 <= i < |params| ==> ResolvedAs(params[i], r.value[i])
      ensures r.Ok? ==> forall i :: 0 <= i < |params| ==> params[i] !in resolving
      ensures (forall n :: n in params ==> Direct(dependencies, old(singletons), resolving, n)) ==> r.Ok?
      ensures r.Err? && r.error.NotFound? ==> r.error.name !in dependencies
      ensures r.Err? && r.error.Circular? ==> r.error.name in resolving || r.error.name in dependencies
    {
      ghost var cache0, busy, made := singletons, resolving, created;
      var args: seq<Instance> := [];
      var i := 0;
      while i < |params|
        invariant 0 <= i <= |params|
        invariant dependencies == old(dependencies) && resolving == busy
        invariant created >= made
        invariant forall k :: k in cache0 ==> k in singletons && singletons[k] == cache0[k]
        invariant forall k :: k in singletons && k !in cache0 ==>
          k !in busy && k in dependencies && dependencies[k].singleton
        invariant |args| == i
        invariant AllSettled(dependencies, singletons, busy, params, args)
      {
        ghost var cache := singletons;
        assert params[i] in params;
        var a := Resolve(params[i]);
        CacheGrowsTwice(dependencies, busy, cache0, cache, singletons);
        if a.Err? {
          assert !Direct(dependencies, cache, busy, params[i]);
          assert !Direct(dependencies, cache0, busy, params[i]);
          return Err(a.error);
        }
        SettledExtended(dependencies, cache, singletons, busy, params, args, a.value);
        args := args + [a.value];
        i := i + 1;
      }
      return Ok(args);
    }

    /** `clear()`: no registrations, no cached singletons, nothing being resolved. */
    method Clear()
      modifies this
      ensures dependencies == map[] && singletons == map[] && resolving == {}
      ensures created == old(created)
    {
      dependencies := map[];
      singletons := map[];
      resolving := {};
    }
  }

  /** A class whose one constructor parameter is a registered value is built with that value as its argument. */
  method ValueParameterResolves() returns (r: Result<Instance, DIError>)
    ensures r.Ok? && r.value.Built? && r.value.cls == 7 && r.value.args == [Plain(1)]
  {
    var c := new Container();
    c.Register("x", Value(Plain(1)), false);
    c.Register("k", ClassProvider(7, Some(["x"])), false);
    r := c.Resolve("k");
  }

  /**
    A singleton already resolved is the instance a constructor receives: the
    factory singleton `a` is made once, and the class `k` that asks for `a`
    is built with that same instance.
   */
  method CachedParameterShared() returns (first: Result<Instance, DIError>, r: Result<Instance, DIError>)
    ensures first == Ok(Made(3, 0))
    ensures r.Ok? && r.value.Built? && r.value.cls == 7 && r.value.args == [Made(3, 0)]
  {
    var c := new Container();
    c.Register("a", Factory(3), true);
    first := c.Resolve("a");
    c.Register("k", ClassProvider(7, Some(["a"])), false);
    r := c.Resolve("k");
  }
}

=== FILE: extensions.dfy ===
/**
  The allow-list of file extensions behind the tag editor (the Qt and the Tk
  variant share the same list logic). The list the editor receives by
  reference is the field `items`; what a call shows the user (an error box,
  a notice, or a new tag) is its result. Widgets are not modelled.
 */
module ExtensionHandling {
  import opened Wrappers
  import opened Text
  import opened Seqs

  /** What one `add_extension` call leads to on screen. */
  datatype AddOutcome =
    | EmptyInput            // error box: empty or only spaces
    | AlreadyPresent(ext: string)   // notice: the extension is already in the list
    | Tagged(ext: string)   // a tag showing `ext` is created

  /** The input stripped and given a leading dot; `None` when nothing is left after stripping. */
  function Normalize(input: string): (r: Option<string>)
    ensures r.None? <==> Trim(input) == []
    ensures r.Some? ==> StartsWith(r.value, ".")
    ensures r.Some? ==> EndsWith(r.value, Trim(input))
    ensures r.Some? && StartsWith(Trim(input), ".") ==> r.value == Trim(input)
    ensures r.Some? ==> |r.value| <= |Trim(input)| + 1
  {
    var t := Trim(input);
    if t == [] then None
    else if StartsWith(t, ".") then Some(t)
    else Some("." + t)
  }

  /** A dotted extension without trailing whitespace is its own normal form. */
  lemma NormalFormFixed(e: string)
    requires StartsWith(e, ".") && !IsSpace(e[|e| - 1])
    ensures Normalize(e) == Some(e)
  {
    assert e[0] == '.';
    TrimFixed(e);
  }

  /** Normalising what normalisation produced changes nothing. */
  lemma NormalizeIdempotent(input: string)
    requires Normalize(input).Some?
    ensures Normalize(Normalize(input).value) == Normalize(input)
  {
    var e := Normalize(input).value;
    EndsWithLast(e, Trim(input));
    NormalFormFixed(e);
  }

  /** `list.remove(x)`: drop the first occurrence. */
  function RemoveFirst(s: seq<string>, x: string): (r: seq<string>)
    requires x in s
    ensures |r| == |s| - 1
  {
    if s[0] == x then s[1..] else [s[0]] + RemoveFirst(s[1..], x)
  }

  /** The first occurrence is the one removed: the entries before it and after it are kept in order. */
  lemma {:induction false} RemoveFirstSplits(s: seq<string>, x: string, i: nat)
    requires i < |s| && s[i] == x && forall j :: 0 <= j < i ==> s[j] != x
    ensures RemoveFirst(s, x) == s[..i] + s[i + 1..]
  {
    if i > 0 {
      var t := s[1..];
      assert s[0] != x;
      forall j | 0 <= j < i - 1 ensures t[j] != x {
        assert t[j] == s[j + 1];
      }
      RemoveFirstSplits(t, x, i - 1);
      assert RemoveFirst(s, x) == [s[0]] + (t[..i - 1] + t[i..]);
      assert t[..i - 1] == s[1..i] && t[i..] == s[i + 1..];
      assert s[..i] == [s[0]] + s[1..i];
    }
  }

  /** Exactly one copy of `x` goes: the result is a permutation of the list minus one `x`. */
  lemma RemoveFirstMultiset(s: seq<string>, x: string)
    requires x in s
    ensures multiset(RemoveFirst(s, x)) == multiset(s) - multiset{x}
  {
    var i := FirstIndex(s, x);
    RemoveFirstSplits(s, x, i);
    assert s == s[..i] + [x] + s[i + 1..];
  }

  /** The position of the first occurrence. */
  function FirstIndex(s: seq<string>, x: string): (i: nat)
    requires x in s
    ensures i < |s| && s[i] == x && forall j :: 0 <= j < i ==> s[j] != x
  {
    if s[0] == x then 0 else 1 + FirstIndex(s[1..], x)
  }

  /** Entry `k` of the shortened list is entry `k` of the list before the removed one, entry `k + 1` after it. */
  lemma RemoveFirstAt(s: seq<string>, x: string, k: nat)
    requires x in s && k < |s| - 1
    ensures RemoveFirst(s, x)[k] == s[if k < FirstIndex(s, x) then k else k + 1]
  {
    RemoveFirstSplits(s, x, FirstIndex(s, x));
  }

  /** Removing from a list without duplicates leaves a list without duplicates that no longer holds `x`. */
  lemma RemoveFirstFromDistinct(s: seq<string>, x: string)
    requires x in s && NoDuplicates(s)
    ensures NoDuplicates(RemoveFirst(s, x)) && x !in RemoveFirst(s, x)
  {
    var r := RemoveFirst(s, x);
    forall a, b | 0 <= a < b < |r| ensures r[a] != r[b] {
      RemoveFirstAt(s, x, a);
      RemoveFirstAt(s, x, b);
    }
    forall k | 0 <= k < |r| ensures r[k] != x {
      RemoveFirstAt(s, x, k);
    }
  }

  class ExtensionList {
    /** The caller's `extensions` list, shared with the rest of the GUI. */
    var items: seq<string>

    constructor (initial: seq<string>)
      ensures items == initial
    {
      items := initial;
    }

    /**
      `add_extension(..., extension, extensions, ..., init)`: strip the input,
      reject an empty one, prepend a missing dot; outside init mode reject an
      extension already present (exact comparison) and otherwise append it.
      In init mode the list is never touched.
     */
    method AddExtension(input: string, init: bool) returns (outcome: AddOutcome)
      modifies this
      ensures Normalize(input).None? ==> outcome == EmptyInput && items == old(items)
      ensures Normalize(input).Some? && !init && Normalize(input).value in old(items) ==>
        outcome == AlreadyPresent(Normalize(input).value) && items == old(items)
      ensures Normalize(input).Some? && (init || Normalize(input).value !in old(items)) ==>
        outcome == Tagged(Normalize(input).value)
      ensures init ==> items == old(items)
      ensures outcome.Tagged? && !init ==> items == old(items) + [outcome.ext]
      ensures NoDuplicates(old(items)) ==> NoDuplicates(items)
    {
      var extension := Trim(input);
      if extension == [] {
        return EmptyInput;
      }
      if !StartsWith(extension, ".") {
        extension := "." + extension;
      }
      if !init && extension in items {
        return AlreadyPresent(extension);
      }
      if !init {
        items := items + [extension];
      }
      return Tagged(extension);
    }

    /** `remove_extension`: remove the first occurrence, or report that the extension is not there. */
    method RemoveExtension(extension: string) returns (removed: bool)
      modifies this
      ensures removed <==> extension in old(items)
      ensures removed ==> items == RemoveFirst(old(items), extension)
      ensures !removed ==> items == old(items)
    {
      if extension in items {
        items := RemoveFirst(items, extension);
        return true;
      }
      return false;
    }

    /**
      `initialize_extensions`: show a tag for every extension already in the
      list by calling the add operation in init mode. Because init mode never
      changes the list, iterating over it while adding is safe.
     */
    method InitializeExtensions() returns (outcomes: seq<AddOutcome>)
      modifies this
      ensures items == old(items)
      ensures |outcomes| == |items|
      ensures forall i :: 0 <= i < |items| ==> outcomes[i] == InitOutcome(items[i])
    {
      var extensions := items;
      outcomes := [];
      var i := 0;
      while i < |extensions|
        invariant 0 <= i <= |extensions|
        invariant items == extensions
        invariant |outcomes| == i
        invariant forall k :: 0 <= k < i ==> outcomes[k] == InitOutcome(extensions[k])
      {
        var o := AddExtension(extensions[i], true);
        outcomes := outcomes + [o];
        i := i + 1;
      }
    }
  }

  /** What `add_extension` shows in init mode for an entry: a tag with its normalised form, or the empty-input error. */
  function InitOutcome(e: string): AddOutcome {
    if Normalize(e).Some? then Tagged(Normalize(e).value) else EmptyInput
  }

  /**
    The corner points `create_rounded_rectangle` hands to the smoothed
    polygon: twenty (x, y) pairs, flattened, going clockwise from the top
    edge, each point next to a corner given twice. The radius defaults to 25.
   */
  function RoundedRectanglePoints(x1: int, y1: int, x2: int, y2: int, r: int := 25): (pts: seq<int>)
    ensures |pts| == 40
    ensures pts[0] == x1 + r && pts[1] == y1
    ensures pts[38] == x1 && pts[39] == y1
  {
    [x1 + r, y1,
     x1 + r, y1,
     x2 - r, y1,
     x2 - r, y1,
     x2, y1,
     x2, y1 + r,
     x2, y1 + r,
     x2, y2 - r,
     x2, y2 - r,
     x2, y2,
     x2 - r, y2,
     x2 - r, y2,
     x1 + r, y2,
     x1 + r, y2,
     x1, y2,
     x1, y2 - r,
     x1, y2 - r,
     x1, y1 + r,
     x1, y1 + r,
     x1, y1]
  }

  /** `(x, y)` lies on the border of the rectangle with corners `(x1, y1)` and `(x2, y2)`. */
  predicate OnBorder(x: int, y: int, x1: int, y1: int, x2: int, y2: int) {
    && x1 <= x <= x2 && y1 <= y <= y2
    && (x == x1 || x == x2 || y == y1 || y == y2)
  }

  /**
    When the radius fits twice along each side, every one of the twenty
    points lies on the border of the rectangle, so the smoothed outline stays
    inside it.
   */
  lemma VerticesOnBorder(x1: int, y1: int, x2: int, y2: int, r: int)
    requires 0 <= r && x1 + 2 * r <= x2 && y1 + 2 * r <= y2
    ensures var pts := RoundedRectanglePoints(x1, y1, x2, y2, r);
      forall k :: 0 <= k < 20 ==> OnBorder(pts[2 * k], pts[2 * k + 1], x1, y1, x2, y2)
  {
    TopVertices(x1, y1, x2, y2, r);
    RightVertices(x1, y1, x2, y2, r);
    BottomVertices(x1, y1, x2, y2, r);
    LeftVertices(x1, y1, x2, y2, r);
  }

  /** The points 0 to 4 lie on the top edge. */
  lemma TopVertices(x1: int, y1: int, x2: int, y2: int, r: int)
    requires 0 <= r && x1 + 2 * r <= x2 && y1 + 2 * r <= y2
    ensures var pts := RoundedRectanglePoints(x1, y1, x2, y2, r);
      forall k :: 0 <= k < 5 ==> OnBorder(pts[2 * k], pts[2 * k + 1], x1, y1, x2, y2)
  {
    var pts := RoundedRectanglePoints(x1, y1, x2, y2, r);
    forall k | 0 <= k < 5 ensures OnBorder(pts[2 * k], pts[2 * k + 1], x1, y1, x2, y2) {
      assert pts[2 * k + 1] == y1;
    }
  }

  /** The points 5 to 9 lie on the right edge. */
  lemma RightVertices(x1: int, y1: int, x2: int, y2: int, r: int)
    requires 0 <= r && x1 + 2 * r <= x2 && y1 + 2 * r <= y2
    ensures var pts := RoundedRectanglePoints(x1, y1, x2, y2, r);
      forall k :: 5 <= k < 10 ==> OnBorder(pts[2 * k], pts[2 * k + 1], x1, y1, x2, y2)
  {
    var pts := RoundedRectanglePoints(x1, y1, x2, y2, r);
    forall k | 5 <= k < 10 ensures OnBorder(pts[2 * k], pts[2 * k + 1], x1, y1, x2, y2) {
      assert pts[2 * k] == x2;
    }
  }

  /** The points 10 to 14 lie on the bottom edge. */
  lemma BottomVertices(x1: int, y1: int, x2: int, y2: int, r: int)
    requires 0 <= r && x1 + 2 * r <= x2 && y1 + 2 * r <= y2
    ensures var pts := RoundedRectanglePoints(x1, y1, x2, y2, r);
      forall k :: 10 <= k < 15 ==> OnBorder(pts[2 * k], pts[2 * k + 1], x1, y1, x2, y2)
  {
    var pts := RoundedRectanglePoints(x1, y1, x2, y2, r);
    forall k | 10 <= k < 15 ensures OnBorder(pts[2 * k], pts[2 * k + 1], x1, y1, x2, y2) {
      assert pts[2 * k + 1] == y2;
    }
  }

  /** The points 15 to 19 lie on the left edge. */
  lemma LeftVertices(x1: int, y1: int, x2: int, y2: int, r: int)
    requires 0 <= r && x1 + 2 * r <= x2 && y1 + 2 * r <= y2
    ensures var pts := RoundedRectanglePoints(x1, y1, x2, y2, r);
      forall k :: 15 <= k < 20 ==> OnBorder(pts[2 * k], pts[2 * k + 1], x1, y1, x2, y2)
  {
    var pts := RoundedRectanglePoints(x1, y1, x2, y2, r);
    forall k | 15 <= k < 20 ensures OnBorder(pts[2 * k], pts[2 * k + 1], x1, y1, x2, y2) {
      assert pts[2 * k] == x1;
    }
  }

  /** Without a radius the corners are cut 25 in from each corner. */
  lemma DefaultRadiusCorners(x1: int, y1: int, x2: int, y2: int)
    ensures var pts := RoundedRectanglePoints(x1, y1, x2, y2);
      pts[0] == x1 + 25 && pts[1] == y1 && pts[38] == x1 && pts[39] == y1
  {
  }

  /** The tag background the Tk editor draws, from (5, 5) to (75, 25) with radius 10, is such a rectangle. */
  lemma TagBackgroundOnBorder()
    ensures var pts := RoundedRectanglePoints(5, 5, 75, 25, 10);
      forall k :: 0 <= k < 20 ==> OnBorder(pts[2 * k], pts[2 * k + 1], 5, 5, 75, 25)
  {
    VerticesOnBorder(5, 5, 75, 25, 10);
  }
}

=== FILE: file_tree.dfy ===
/**
  `print_tree`: the nested mapping built from the files' relative paths and
  its rendering with box-drawing connectors. A directory of the mapping is a
  `Branch` whose items are kept in key order, which is the order
  `sorted(d.items())` visits them in; a file is a `Leaf`, the `None` marker.
 */
module FileTree {
  import opened Wrappers
  import opened Text
  import opened Paths
  import opened Seqs

  const Tee: string := "├── "
  const Corner: string := "└── "
  const Bar: string := "│   "
  const Blank: string := "    "

  // ---------------------------------------------------------------------
  // Python's ordering of str: code point by code point, a proper prefix first

  predicate Less(a: string, b: string)
    decreases |a|
  {
    if a == [] then b != []
    else b != [] && (a[0] < b[0] || (a[0] == b[0] && Less(a[1..], b[1..])))
  }

  lemma {:induction false} LessIrreflexive(a: string)
    ensures !Less(a, a)
    decreases |a|
  {
    if a != [] {
      LessIrreflexive(a[1..]);
    }
  }

  lemma {:induction false} LessTransitive(a: string, b: string, c: string)
    requires Less(a, b) && Less(b, c)
    ensures Less(a, c)
    decreases |a|
  {
    if a != [] && a[0] == b[0] && b[0] == c[0] {
      LessTransitive(a[1..], b[1..], c[1..]);
    }
  }

  lemma {:induction false} LessTotal(a: string, b: string)
    ensures a == b || Less(a, b) || Less(b, a)
    decreases |a|
  {
    if a != [] && b != [] && a[0] == b[0] {
      LessTotal(a[1..], b[1..]);
      if a[1..] == b[1..] {
        assert a == [a[0]] + a[1..] && b == [b[0]] + b[1..];
      }
    }
  }

  // ---------------------------------------------------------------------
  // The nested mapping

  /** `None` (a file) or a dict (a directory) of the tree built by `print_tree`. */
  datatype Node = Leaf | Branch(items: seq<Item>)
  datatype Item = Item(key: string, node: Node)

  datatype TreeError =
    | NotUnderProject(file: Path)   // `relative_to` raises ValueError
    | EmptyPath(file: Path)         // `parts[-1]` of the project itself raises IndexError
    | ThroughFile(file: Path)       // `setdefault` called on the `None` of a file

  predicate Sorted(items: seq<Item>) {
    forall i, j :: 0 <= i < j < |items| ==> Less(items[i].key, items[j].key)
  }

  /** Every dict of the tree holds its keys in strictly increasing order. */
  predicate Valid(n: Node)
    decreases n
  {
    match n
    case Leaf => true
    case Branch(items) => Sorted(items) && forall it :: it in items ==> Valid(it.node)
  }

  /** `d.get(key)`. */
  function Find(items: seq<Item>, key: string): Option<Node> {
    if items == [] then None
    else if items[0].key == key then Some(items[0].node)
    else Find(items[1..], key)
  }

  lemma {:induction false} FindIn(items: seq<Item>, key: string)
    ensures Find(items, key).Some? ==> Item(key, Find(items, key).value) in items
    ensures Find(items, key).None? ==> forall it :: it in items ==> it.key != key
  {
    if items != [] {
      FindIn(items[1..], key);
    }
  }

  /** `d[key] = node`, keeping the keys in order. */
  function Put(items: seq<Item>, key: string, node: Node): seq<Item> {
    if items == [] then [Item(key, node)]
    else if items[0].key == key then [Item(key, node)] + items[1..]
    else if Less(key, items[0].key) then [Item(key, node)] + items
    else [items[0]] + Put(items[1..], key, node)
  }

  lemma {:induction false} PutMembers(items: seq<Item>, key: string, node: Node)
    ensures forall it :: it in Put(items, key, node) ==> it in items || it == Item(key, node)
  {
    if items != [] && items[0].key != key && !Less(key, items[0].key) {
      PutMembers(items[1..], key, node);
    }
  }

  /** An entry below every key of a sorted dict can go in front of it. */
  lemma SortedCons(head: Item, items: seq<Item>)
    requires Sorted(items)
    requires forall j :: 0 <= j < |items| ==> Less(head.key, items[j].key)
    ensures Sorted([head] + items)
  {
    var all := [head] + items;
    forall a, b | 0 <= a < b < |all| ensures Less(all[a].key, all[b].key) {
      assert all[b] == items[b - 1];
      if a > 0 {
        assert all[a] == items[a - 1];
      }
    }
  }

  /** Storing a key keeps a dict's keys in order. */
  lemma {:induction false} PutSorted(items: seq<Item>, key: string, node: Node)
    requires Sorted(items)
    ensures Sorted(Put(items, key, node))
  {
    if items == [] {
    } else if items[0].key == key {
      forall j | 0 <= j < |items[1..]| ensures Less(key, items[1..][j].key) {
        assert items[1..][j] == items[j + 1];
      }
      SortedCons(Item(key, node), items[1..]);
    } else if Less(key, items[0].key) {
      forall j | 0 <= j < |items| ensures Less(key, items[j].key) {
        if j > 0 {
          LessTransitive(key, items[0].key, items[j].key);
        }
      }
      SortedCons(Item(key, node), items);
    } else {
      var rest := Put(items[1..], key, node);
      PutSorted(items[1..], key, node);
      PutMembers(items[1..], key, node);
      LessTotal(key, items[0].key);
      forall j | 0 <= j < |rest| ensures Less(items[0].key, rest[j].key) {
        assert rest[j] in rest;
        if rest[j] != Item(key, node) {
          var k :| 0 <= k < |items[1..]| && items[1..][k] == rest[j];
          assert items[k + 1] == rest[j];
        }
      }
      SortedCons(items[0], rest);
    }
  }

  /** `d[key] = node` sets `key` and leaves every other key as it was. */
  lemma {:induction false} FindPut(items: seq<Item>, key: string, node: Node, other: string)
    ensures Find(Put(items, key, node), key) == Some(node)
    ensures other != key ==> Find(Put(items, key, node), other) == Find(items, other)
  {
    if items != [] && items[0].key != key && !Less(key, items[0].key) {
      FindPut(items[1..], key, node, other);
    }
  }

  /** Putting back what is already there changes nothing. */
  lemma {:induction false} PutFound(items: seq<Item>, key: string)
    requires Sorted(items) && Find(items, key).Some?
    ensures Put(items, key, Find(items, key).value) == items
  {
    if items[0].key == key {
      assert items == [items[0]] + items[1..];
    } else {
      FindIn(items[1..], key);
      var it := Item(key, Find(items, key).value);
      var i :| 0 <= i < |items[1..]| && items[1..][i] == it;
      assert items[i + 1] == it;
      if Less(key, items[0].key) {
        LessTransitive(key, items[0].key, items[i + 1].key);
        LessIrreflexive(key);
        assert false;
      } else {
        PutFound(items[1..], key);
        assert Put(items, key, it.node) == [items[0]] + items[1..];
      }
    }
  }

  /**
    The loop body of `print_tree` for one file: `d = d.setdefault(part, {})`
    for every directory part, then `d.setdefault(parts[-1], None)`.
   */
  function Insert(n: Node, parts: seq<string>): Result<Node, TreeError>
    requires parts != []
    decreases |parts|
  {
    match n
    case Leaf => Err(ThroughFile([]))
    case Branch(items) =>
      var existing := Find(items, parts[0]);
      if |parts| == 1 then
        if existing.Some? then Ok(n) else Ok(Branch(Put(items, parts[0], Leaf)))
      else
        var child := if existing.Some? then existing.value else Branch([]);
        match Insert(child, parts[1..])
        case Err(e) => Err(e)
        case Ok(c) => Ok(Branch(Put(items, parts[0], c)))
  }

  /** `path` names a node (file or directory) of the tree. */
  predicate Has(n: Node, path: seq<string>)
    decreases |path|
  {
    && path != []
    && n.Branch?
    && var found := Find(n.items, path[0]);
    && found.Some?
    && (|path| == 1 || Has(found.value, path[1..]))
  }

  /** `path` leads onto a file: `setdefault` would then be called on `None`. */
  predicate LeafAt(n: Node, path: seq<string>)
    decreases |path|
  {
    && path != []
    && n.Branch?
    && var found := Find(n.items, path[0]);
    && found.Some?
    && (if |path| == 1 then found.value == Leaf else LeafAt(found.value, path[1..]))
  }

  predicate IsPrefixOf(q: seq<string>, parts: seq<string>) {
    q != [] && |q| <= |parts| && parts[..|q|] == q
  }

  /** Below a shared first key, being a prefix is being a prefix of the rests. */
  lemma PrefixOfTail(q: seq<string>, parts: seq<string>)
    requires |q| > 1 && |parts| > 1 && q[0] == parts[0]
    ensures IsPrefixOf(q, parts) <==> IsPrefixOf(q[1..], parts[1..])
  {
    assert q == [q[0]] + q[1..];
    if |q| <= |parts| {
      assert parts[..|q|] == [parts[0]] + parts[1..][..|q| - 1];
    }
  }

  /** Inserting fails exactly when a proper prefix of the path is already a file. */
  lemma {:induction false} InsertFails(n: Node, parts: seq<string>)
    requires parts != [] && n.Branch?
    ensures Insert(n, parts).Err? <==> exists k :: 1 <= k < |parts| && LeafAt(n, parts[..k])
    decreases |parts|
  {
    if |parts| > 1 {
      var existing := Find(n.items, parts[0]);
      var child := if existing.Some? then existing.value else Branch([]);
      assert parts[..1] == [parts[0]];
      if child.Leaf? {
        assert LeafAt(n, parts[..1]);
      } else {
        InsertFails(child, parts[1..]);
        forall k | 1 < k < |parts|
          ensures LeafAt(n, parts[..k]) <==> LeafAt(child, parts[1..][..k - 1])
        {
          assert parts[..k][1..] == parts[1..][..k - 1];
          assert parts[..k][0] == parts[0];
        }
        if Insert(n, parts).Err? {
          var k :| 1 <= k < |parts[1..]| && LeafAt(child, parts[1..][..k]);
          assert LeafAt(n, parts[..k + 1]);
        }
      }
    }
  }

  /**
    A successful insertion adds exactly the path and its parent directories
    and keeps every dict's keys in order.
   */
  lemma {:induction false} InsertPaths(n: Node, parts: seq<string>)
    requires parts != [] && Valid(n) && n.Branch? && Insert(n, parts).Ok?
    ensures var m := Insert(n, parts).value;
      && Valid(m) && m.Branch?
      && forall q :: Has(m, q) <==> Has(n, q) || IsPrefixOf(q, parts)
    decreases |parts|
  {
    var items := n.items;
    var existing := Find(items, parts[0]);
    FindIn(items, parts[0]);
    var m := Insert(n, parts).value;
    if |parts| == 1 {
      if existing.None? {
        PutSorted(items, parts[0], Leaf);
        PutMembers(items, parts[0], Leaf);
        forall q | q != [] ensures Has(m, q) <==> Has(n, q) || IsPrefixOf(q, parts) {
          FindPut(items, parts[0], Leaf, q[0]);
        }
      } else {
        forall q | IsPrefixOf(q, parts) ensures Has(n, q) {
          assert q == parts;
        }
      }
    } else {
      var child := if existing.Some? then existing.value else Branch([]);
      InsertPaths(child, parts[1..]);
      var c := Insert(child, parts[1..]).value;
      PutSorted(items, parts[0], c);
      PutMembers(items, parts[0], c);
      forall q | q != [] ensures Has(m, q) <==> Has(n, q) || IsPrefixOf(q, parts) {
        FindPut(items, parts[0], c, q[0]);
        if q[0] == parts[0] && |q| > 1 {
          PrefixOfTail(q, parts);
        }
      }
    }
  }

  /** Inserting a path that is already there changes nothing: duplicate files collapse. */
  lemma {:induction false} InsertIdempotent(n: Node, parts: seq<string>)
    requires parts != [] && Valid(n) && n.Branch? && Insert(n, parts).Ok?
    ensures Insert(Insert(n, parts).value, parts) == Insert(n, parts)
    decreases |parts|
  {
    var items := n.items;
    var m := Insert(n, parts).value;
    if |parts| == 1 {
      if Find(items, parts[0]).None? {
        FindPut(items, parts[0], Leaf, parts[0]);
      }
    } else {
      var existing := Find(items, parts[0]);
      FindIn(items, parts[0]);
      var child := if existing.Some? then existing.value else Branch([]);
      var c := Insert(child, parts[1..]).value;
      InsertPaths(child, parts[1..]);
      InsertIdempotent(child, parts[1..]);
      FindPut(items, parts[0], c, parts[0]);
      PutSorted(items, parts[0], c);
      PutFound(m.items, parts[0]);
    }
  }

  // ---------------------------------------------------------------------
  // Building the tree from the file list

  /** `Path(file).relative_to(project_path).parts`, and the `parts[-1]` it needs. */
  function RelativeParts(file: Path, project: Path): (r: Result<seq<string>, TreeError>)
    ensures r.Ok? ==> r.value != [] && project + r.value == file
  {
    if |project| <= |file| && file[..|project|] == project then
      if |file| == |project| then Err(EmptyPath(file)) else Ok(file[|project|..])
    else Err(NotUnderProject(file))
  }

  function InsertFile(t: Node, file: Path, project: Path): Result<Node, TreeError> {
    match RelativeParts(file, project)
    case Err(e) => Err(e)
    case Ok(parts) =>
      match Insert(t, parts)
      case Err(_) => Err(ThroughFile(file))
      case Ok(t') => Ok(t')
  }

  /** The tree `print_tree` builds from `files`, or the error it raises. */
  function Build(files: seq<Path>, project: Path): Result<Node, TreeError> {
    if files == [] then Ok(Branch([]))
    else
      match Build(files[..|files| - 1], project)
      case Err(e) => Err(e)
      case Ok(t) => InsertFile(t, files[|files| - 1], project)
  }

  /** The tree holds exactly the files' relative paths and their parent directories. */
  lemma {:induction false} BuildPaths(files: seq<Path>, project: Path)
    requires Build(files, project).Ok?
    ensures Valid(Build(files, project).value) && Build(files, project).value.Branch?
    ensures forall q :: Has(Build(files, project).value, q) <==>
      exists f :: f in files && |project| < |f| && f[..|project|] == project && IsPrefixOf(q, f[|project|..])
  {
    if files != [] {
      var init, f := files[..|files| - 1], files[|files| - 1];
      assert files == init + [f];
      BuildPaths(init, project);
      var t := Build(init, project).value;
      var parts := RelativeParts(f, project).value;
      InsertPaths(t, parts);
      forall q ensures Has(Build(files, project).value, q) <==>
        exists g :: g in files && |project| < |g| && g[..|project|] == project && IsPrefixOf(q, g[|project|..])
      {
        if IsPrefixOf(q, parts) {
          assert f in files && parts == f[|project|..];
        }
        if exists g :: g in files && |project| < |g| && g[..|project|] == project && IsPrefixOf(q, g[|project|..]) {
          var g :| g in files && |project| < |g| && g[..|project|] == project && IsPrefixOf(q, g[|project|..]);
          if g != f { assert g in init; }
        }
      }
    }
  }

  /** A successful insertion adds no file except the inserted path itself. */
  lemma {:induction false} InsertLeaves(n: Node, parts: seq<string>)
    requires parts != [] && n.Branch? && Insert(n, parts).Ok?
    ensures Insert(n, parts).value.Branch?
    ensures forall q :: LeafAt(Insert(n, parts).value, q) ==> LeafAt(n, q) || q == parts
    decreases |parts|
  {
    var items := n.items;
    var existing := Find(items, parts[0]);
    var m := Insert(n, parts).value;
    if |parts| == 1 {
      if existing.None? {
        assert m == Branch(Put(items, parts[0], Leaf));
        forall q | LeafAt(m, q) ensures LeafAt(n, q) || q == parts {
          FindPut(items, parts[0], Leaf, q[0]);
          if q[0] == parts[0] {
            assert !LeafAt(Leaf, q[1..]);
            assert q == [q[0]] && parts == [parts[0]];
          }
        }
      }
    } else {
      var child := if existing.Some? then existing.value else Branch([]);
      InsertLeaves(child, parts[1..]);
      var c := Insert(child, parts[1..]).value;
      forall q | LeafAt(m, q) ensures LeafAt(n, q) || q == parts {
        FindPut(items, parts[0], c, q[0]);
        if q[0] == parts[0] {
          assert |q| > 1 && LeafAt(c, q[1..]);
          if q[1..] == parts[1..] {
            assert q == [q[0]] + q[1..] && parts == [parts[0]] + parts[1..];
          } else {
            assert LeafAt(child, q[1..]);
          }
        }
      }
    }
  }

  /** Every file of the built tree is the relative path of one of the listed files. */
  lemma {:induction false} BuildLeaves(files: seq<Path>, project: Path)
    requires Build(files, project).Ok?
    ensures Build(files, project).value.Branch?
    ensures forall q :: LeafAt(Build(files, project).value, q) ==> exists f :: f in files && f == project + q
  {
    if files != [] {
      var init, f := files[..|files| - 1], files[|files| - 1];
      assert files == init + [f];
      BuildLeaves(init, project);
      var t := Build(init, project).value;
      var parts := RelativeParts(f, project).value;
      InsertLeaves(t, parts);
      forall q | LeafAt(Build(files, project).value, q) ensures exists g :: g in files && g == project + q {
        if q == parts {
          assert f in files;
        } else {
          var g :| g in init && g == project + q;
          assert g in files;
        }
      }
    }
  }

  /**
    When every file lies below the project and no file lies below another,
    building the tree never fails.
   */
  lemma {:induction false} BuildSucceeds(files: seq<Path>, project: Path)
    requires forall f :: f in files ==> |project| < |f| && f[..|project|] == project
    requires PrefixFree(files)
    ensures Build(files, project).Ok?
  {
    if files != [] {
      var init := files[..|files| - 1];
      PrefixFreeDropLast(files);
      assert files[|files| - 1] in files;
      forall f | f in init ensures |project| < |f| && f[..|project|] == project {
        assert f in files;
      }
      BuildSucceeds(init, project);
      BuildLast(files, project);
    }
  }

  /** The last file can be added to the tree of the others when it lies below the project and no other file lies on its way. */
  lemma BuildLast(files: seq<Path>, project: Path)
    requires files != [] && Build(files[..|files| - 1], project).Ok?
    requires var f := files[|files| - 1]; |project| < |f| && f[..|project|] == project
    requires forall g :: g in files[..|files| - 1] && |g| < |files[|files| - 1]| ==> files[|files| - 1][..|g|] != g
    ensures Build(files, project).Ok?
  {
    var init, f := files[..|files| - 1], files[|files| - 1];
    BuildLeaves(init, project);
    var t := Build(init, project).value;
    var parts := f[|project|..];
    assert RelativeParts(f, project) == Ok(parts);
    forall k | 1 <= k < |parts| ensures !LeafAt(t, parts[..k]) {
      var g := project + parts[..k];
      assert |g| < |f| && f[..|g|] == g;
    }
    InsertFails(t, parts);
  }

  /** Listing a file twice gives the same tree as listing it once. */
  lemma DuplicateFileCollapses(files: seq<Path>, project: Path, f: Path)
    requires Build(files + [f], project).Ok?
    ensures Build(files + [f, f], project) == Build(files + [f], project)
  {
    assert (files + [f, f])[..|files| + 1] == files + [f];
    assert (files + [f])[..|files|] == files;
    var t := Build(files, project).value;
    if files != [] { BuildPaths(files, project); }
    var parts := RelativeParts(f, project).value;
    InsertIdempotent(t, parts);
  }

  // ---------------------------------------------------------------------
  // Rendering

  /** The connector of entry `i` of a level holding `n` entries: `├── ` for all but the last. */
  function Connector(i: nat, n: nat): (r: string)
    ensures r == Corner <==> i + 1 >= n
  {
    if i + 1 < n then Tee else Corner
  }

  /** `'│   '` below an entry that has a later sibling, `'    '` below the last one. */
  function Extension(i: nat, n: nat): (r: string)
    ensures r == Blank <==> i + 1 >= n
  {
    if i + 1 < n then Bar else Blank
  }

  /** The lines `print_dict(d, prefix)` appends for the entries from `i` on. */
  function LinesFrom(items: seq<Item>, i: nat, prefix: string): seq<string>
    decreases items, |items| - i
  {
    if i >= |items| then []
    else
      var it := items[i];
      assert it in items;
      [prefix + Connector(i, |items|) + it.key]
      + (match it.node
         case Leaf => []
         case Branch(children) => LinesFrom(children, 0, prefix + Extension(i, |items|)))
      + LinesFrom(items, i + 1, prefix)
  }

  /** The number of files and directories below the entries from `i` on. */
  function CountFrom(items: seq<Item>, i: nat): nat
    decreases items, |items| - i
  {
    if i >= |items| then 0
    else
      var it := items[i];
      assert it in items;
      1 + (match it.node case Leaf => 0 case Branch(children) => CountFrom(children, 0)) + CountFrom(items, i + 1)
  }

  /** One line per node of the tree. */
  lemma {:induction false} LineCount(items: seq<Item>, i: nat, prefix: string)
    ensures |LinesFrom(items, i, prefix)| == CountFrom(items, i)
    decreases items, |items| - i
  {
    if i < |items| {
      var it := items[i];
      assert it in items;
      if it.node.Branch? {
        LineCount(it.node.items, 0, prefix + Extension(i, |items|));
      }
      LineCount(items, i + 1, prefix);
    }
  }

  /** Every line of a level starts with that level's prefix. */
  lemma {:induction false} LinesStartWithPrefix(items: seq<Item>, i: nat, prefix: string)
    ensures forall line :: line in LinesFrom(items, i, prefix) ==> StartsWith(line, prefix)
    decreases items, |items| - i
  {
    if i < |items| {
      var it := items[i];
      assert it in items;
      var ext := prefix + Extension(i, |items|);
      if it.node.Branch? {
        LinesStartWithPrefix(it.node.items, 0, ext);
        forall line | line in LinesFrom(it.node.items, 0, ext) ensures StartsWith(line, prefix) {
          assert line[..|prefix|] == line[..|ext|][..|prefix|];
        }
      }
      LinesStartWithPrefix(items, i + 1, prefix);
    }
  }

  /**
    The layout of entry `i`: its own line carries `└── ` iff it is the last
    entry and `├── ` otherwise, and every line below it extends the prefix
    with `    ` under the last entry and `│   ` under any other.
   */
  lemma EntryLayout(items: seq<Item>, i: nat, prefix: string)
    requires i < |items|
    ensures var lines := LinesFrom(items, i, prefix);
      && lines[0] == prefix + (if i == |items| - 1 then Corner else Tee) + items[i].key
      && var below := |lines| - |LinesFrom(items, i + 1, prefix)|;
      && 1 <= below
      && forall k :: 1 <= k < below ==>
           StartsWith(lines[k], prefix + (if i == |items| - 1 then Blank else Bar))
  {
    var it := items[i];
    assert it in items;
    var ext := prefix + Extension(i, |items|);
    if it.node.Branch? {
      LinesStartWithPrefix(it.node.items, 0, ext);
      var lines := LinesFrom(items, i, prefix);
      var sub := LinesFrom(it.node.items, 0, ext);
      forall k | 1 <= k < 1 + |sub| ensures StartsWith(lines[k], ext) {
        assert lines[k] == sub[k - 1];
        assert sub[k - 1] in sub;
      }
    }
  }

  /** Within a level of a valid tree the entries are emitted in increasing key order. */
  lemma LevelOrder(items: seq<Item>, i: nat, j: nat)
    requires Valid(Branch(items)) && i < j < |items|
    ensures Less(items[i].key, items[j].key)
    ensures LinesFrom(items, i, "")[0] == Connector(i, |items|) + items[i].key
  {
  }

  /** The paths `[k] + q` for every `q` of `s`: a set of paths moved one level down under `k`. */
  function Prefixed(k: string, s: set<seq<string>>): (r: set<seq<string>>)
    ensures forall q :: q in r <==> q != [] && q[0] == k && q[1..] in s
  {
    var r := set q | q in s :: [k] + q;
    assert forall q :: q in s ==> ([k] + q)[1..] == q;
    assert forall q :: q != [] && q[0] == k ==> q == [k] + q[1..];
    r
  }

  /** Moving a set of paths under one key keeps their number. */
  lemma {:induction false} PrefixedCard(k: string, s: set<seq<string>>)
    ensures |Prefixed(k, s)| == |s|
    decreases |s|
  {
    if s != {} {
      var x :| x in s;
      var rest := s - {x};
      PrefixedCard(k, rest);
      assert Prefixed(k, s) == Prefixed(k, rest) + {[k] + x} by {
        assert ([k] + x)[1..] == x;
      }
      assert ([k] + x)[1..] == x;
    }
  }

  /**
    Every path through the entries from `i` on: the key of each entry, and
    that key followed by every path of the dict below it.
   */
  function PathsFrom(items: seq<Item>, i: nat): set<seq<string>>
    decreases items, |items| - i
  {
    if i >= |items| then {}
    else
      var it := items[i];
      assert it in items;
      {[it.key]}
      + (match it.node case Leaf => {} case Branch(children) => Prefixed(it.key, PathsFrom(children, 0)))
      + PathsFrom(items, i + 1)
  }

  /** Path `q` goes through entry `j`: its first key is that entry's and its rest, if any, is in that entry. */
  predicate Through(items: seq<Item>, j: nat, q: seq<string>)
    requires j < |items|
  {
    q != [] && items[j].key == q[0] && (|q| == 1 || Has(items[j].node, q[1..]))
  }

  /** One step of `PathsFrom`: the paths through entry `i`, then those through the later entries. */
  lemma PathsFromStep(items: seq<Item>, i: nat, q: seq<string>)
    requires Valid(Branch(items)) && i < |items|
    ensures q in PathsFrom(items, i) <==> Through(items, i, q) || q in PathsFrom(items, i + 1)
    decreases items, 0
  {
    var it := items[i];
    assert it in items;
    var below: set<seq<string>> := match it.node case Leaf => {} case Branch(children) => Prefixed(it.key, PathsFrom(children, 0));
    assert PathsFrom(items, i) == {[it.key]} + below + PathsFrom(items, i + 1);
    if q != [] && q[0] == it.key && |q| == 1 {
      assert q == [it.key];
    }
    if q != [] && q[0] == it.key && |q| > 1 {
      if it.node.Branch? {
        PathsFromMembers(it.node.items, 0, q[1..]);
        assert it.node.items[0..] == it.node.items;
      }
      assert q in below <==> Has(it.node, q[1..]);
    }
  }

  /** In a sorted dict no entry after entry `i` has its key. */
  lemma KeyNotLater(items: seq<Item>, i: nat)
    requires Sorted(items) && i < |items|
    ensures Find(items[i + 1..], items[i].key).None?
  {
    var key := items[i].key;
    FindIn(items[i + 1..], key);
    if Find(items[i + 1..], key).Some? {
      var k :| 0 <= k < |items[i + 1..]| && items[i + 1..][k] == Item(key, Find(items[i + 1..], key).value);
      assert items[i + 1 + k].key == key;
      LessIrreflexive(key);
      assert false;
    }
  }

  /** The paths through the entries from `i` on are the paths of the dict made of those entries. */
  lemma {:induction false} PathsFromMembers(items: seq<Item>, i: nat, q: seq<string>)
    requires Valid(Branch(items)) && i <= |items|
    ensures q in PathsFrom(items, i) <==> Has(Branch(items[i..]), q)
    decreases items, |items| - i + 1
  {
    if i < |items| {
      PathsFromStep(items, i, q);
      PathsFromMembers(items, i + 1, q);
      assert items[i..][1..] == items[i + 1..];
      if q != [] && q[0] == items[i].key {
        KeyNotLater(items, i);
      }
    }
  }

  /** A valid dict and the dicts below it hold `CountFrom` distinct paths. */
  lemma {:induction false} PathsCount(items: seq<Item>, i: nat)
    requires Valid(Branch(items))
    ensures |PathsFrom(items, i)| == CountFrom(items, i)
    decreases items, |items| - i
  {
    if i < |items| {
      var it := items[i];
      assert it in items;
      var own := {[it.key]};
      var below: set<seq<string>> := match it.node case Leaf => {} case Branch(children) => Prefixed(it.key, PathsFrom(children, 0));
      var rest := PathsFrom(items, i + 1);
      if it.node.Branch? {
        PathsCount(it.node.items, 0);
        PrefixedCard(it.key, PathsFrom(it.node.items, 0));
      }
      PathsCount(items, i + 1);
      if it.node.Branch? {
        PathsFromMembers(it.node.items, 0, []);
      }
      assert own * below == {};
      forall q | q in rest ensures q != [] && q[0] != it.key {
        PathsFromMembers(items, i + 1, q);
        if q != [] && q[0] == it.key {
          KeyNotLater(items, i);
        }
      }
      assert (own + below) * rest == {};
    }
  }

  /**
    The listing of a valid tree has one line per distinct path of the tree:
    `print_tree` shows every file and directory it holds exactly once.
   */
  lemma ListingCountsPaths(items: seq<Item>, prefix: string)
    requires Valid(Branch(items))
    ensures |LinesFrom(items, 0, prefix)| == |PathsFrom(items, 0)|
    ensures forall q :: q in PathsFrom(items, 0) <==> Has(Branch(items), q)
  {
    LineCount(items, 0, prefix);
    PathsCount(items, 0);
    forall q ensures q in PathsFrom(items, 0) <==> Has(Branch(items), q) {
      PathsFromMembers(items, 0, q);
      assert items[0..] == items;
    }
  }

  /**
    The listing of the gathered files has one line per distinct leading part
    of their paths below the project: each file and each directory on the way
    to one appears exactly once.
   */
  lemma ListingOfBuild(files: seq<Path>, project: Path)
    requires Build(files, project).Ok?
    ensures var t := Build(files, project).value;
      && t.Branch?
      && |LinesFrom(t.items, 0, "")| == |PathsFrom(t.items, 0)|
      && forall q :: q in PathsFrom(t.items, 0) <==>
           exists f :: f in files && |project| < |f| && f[..|project|] == project && IsPrefixOf(q, f[|project|..])
  {
    BuildPaths(files, project);
    ListingCountsPaths(Build(files, project).value.items, "");
  }

  // ---------------------------------------------------------------------
  // The loops of `print_tree`

  /** The indentation `print_dict` picks from the connector (a bar after `├── `, blanks otherwise) is `Extension`. */
  lemma ExtensionFollowsConnector(i: nat, n: nat)
    ensures (if Connector(i, n) == Tee then Bar else Blank) == Extension(i, n)
  {
    assert Tee[0] != Corner[0];
  }

  /** The lines of the entries from `i` on: entry `i`'s own line, the lines below it, then the later entries' lines. */
  lemma LinesFromStep(items: seq<Item>, i: nat, prefix: string, out: seq<string>)
    requires i < |items|
    ensures var sub := if items[i].node.Branch? then LinesFrom(items[i].node.items, 0, prefix + Extension(i, |items|)) else [];
      out + LinesFrom(items, i, prefix)
      == ((out + [prefix + Connector(i, |items|) + items[i].key]) + sub) + LinesFrom(items, i + 1, prefix)
  {
    var it := items[i];
    var line := prefix + Connector(i, |items|) + it.key;
    var sub := if it.node.Branch? then LinesFrom(it.node.items, 0, prefix + Extension(i, |items|)) else [];
    var rest := LinesFrom(items, i + 1, prefix);
    assert LinesFrom(items, i, prefix) == [line] + sub + rest;
    assert out + ([line] + sub + rest) == ((out + [line]) + sub) + rest;
  }

  /** `print_dict(d, prefix)`: append the lines of `items` to `output`, recursing into directories. */
  method PrintDict(items: seq<Item>, prefix: string, output: seq<string>) returns (out: seq<string>)
    ensures out == output + LinesFrom(items, 0, prefix)
    decreases items, 1
  {
    out := output;
    var i := 0;
    while i < |items|
      invariant 0 <= i <= |items|
      invariant out + LinesFrom(items, i, prefix) == output + LinesFrom(items, 0, prefix)
    {
      out := PrintEntry(items, i, prefix, out);
      i := i + 1;
    }
  }

  /**
    One pass of the loop of `print_dict`: the line of entry `i`, then, for a
    directory, the lines below it with the prefix extended.
   */
  method PrintEntry(items: seq<Item>, i: nat, prefix: string, output: seq<string>) returns (out: seq<string>)
    requires i < |items|
    ensures out + LinesFrom(items, i + 1, prefix) == output + LinesFrom(items, i, prefix)
    decreases items, 0
  {
    var it := items[i];
    var connector := Connector(i, |items|);
    out := output + [prefix + connector + it.key];
    match it.node {
      case Branch(children) =>
        ExtensionFollowsConnector(i, |items|);
        var extension := if connector == Tee then Bar else Blank;
        assert it in items;
        out := PrintDict(children, prefix + extension, out);
      case Leaf =>
    }
    LinesFromStep(items, i, prefix, output);
  }

  /** `'\n'.join(output)` after `print_dict(tree)`. */
  function Render(t: Node): string {
    match t
    case Leaf => ""
    case Branch(items) => JoinWith(LinesFrom(items, 0, ""), "\n")
  }

  /**
    The first half of `print_tree(files, project_path)`: the nested mapping
    built file by file with `setdefault`; the first file that cannot be placed
    ends the loop with its error.
   */
  method BuildTree(files: seq<Path>, project: Path) returns (r: Result<Node, TreeError>)
    ensures r == Build(files, project)
  {
    var tree := Branch([]);
    var i := 0;
    while i < |files|
      invariant 0 <= i <= |files|
      invariant Build(files[..i], project) == Ok(tree)
    {
      assert files[..i + 1][..i] == files[..i] && files[..i + 1][i] == files[i];
      var next := InsertFile(tree, files[i], project);
      assert Build(files[..i + 1], project) == next;
      if next.Err? {
        BuildErrorStays(files, project, i + 1);
        return next;
      }
      tree := next.value;
      i := i + 1;
    }
    assert files[..i] == files;
    return Ok(tree);
  }

  /** `print_tree(files, project_path)`: build the nested mapping, then render it. */
  method PrintTree(files: seq<Path>, project: Path) returns (r: Result<string, TreeError>)
    ensures files == [] ==> r == Ok("")
    ensures r.Ok? <==> Build(files, project).Ok?
    ensures r.Ok? ==> r.value == Render(Build(files, project).value)
    ensures r.Err? ==> r.error == Build(files, project).error
  {
    var built := BuildTree(files, project);
    if built.Err? {
      return Err(built.error);
    }
    var tree := built.value;
    if tree.Leaf? {
      return Ok("");
    }
    var lines := PrintDict(tree.items, "", []);
    assert lines == LinesFrom(tree.items, 0, "");
    return Ok(JoinWith(lines, "\n"));
  }

  /** The error of the first failing file is the error of the whole build. */
  lemma {:induction false} BuildErrorStays(files: seq<Path>, project: Path, k: nat)
    requires k <= |files| && Build(files[..k], project).Err?
    ensures Build(files, project) == Build(files[..k], project)
    decreases |files| - k
  {
    if k < |files| {
      assert files[..k + 1][..k] == files[..k];
      BuildErrorStays(files, project, k + 1);
    } else {
      assert files[..k] == files;
    }
  }
}

=== FILE: packager.dfy ===
/**
  `run_packaging`: gather, archive, render, and report exactly one
  `(message, output_path)` result. The result queue becomes the returned
  value; the temporary directory, whether the archive can be created and
  which files cannot be read are parameters.
 */
module Packager {
  import opened Wrappers
  import opened Text
  import opened Paths
  import Walk
  import Archive
  import FileTree

  /** The one tuple `run_packaging` puts on the queue. */
  datatype PackagingResult = PackagingResult(message: string, outputPath: Option<Path>)

  datatype Failure = ArchiveFailed(archive: Archive.ArchiveError) | TreeFailed(tree: FileTree.TreeError)

  const NoFilesMessage: string := "没有文件需要打包。"
  const CreatedPrefix: string := "压缩包创建在: "
  /** The title printed above the listing. */
  const ListingTitle: string := "打包的文件列表:"
  const ErrorPrefix: string := "打包过程中出现错误: "

  /** `str(e)` of the exception, represented by the path it concerns. */
  function FailureText(e: Failure): string {
    match e
    case ArchiveFailed(CannotCreate(p)) => Display(p)
    case ArchiveFailed(CannotRead(p)) => Display(p)
    case TreeFailed(NotUnderProject(p)) => Display(p)
    case TreeFailed(EmptyPath(p)) => Display(p)
    case TreeFailed(ThroughFile(p)) => Display(p)
  }

  /**
    On a tree a real filesystem can hold, the gathered files always make a
    tree: `print_tree` cannot fail on them.
   */
  lemma GatheredFilesBuild(project: Path, tree: Walk.Dir, extensions: seq<string>, excluded: seq<Path>)
    requires Walk.WellFormed(tree)
    ensures FileTree.Build(Walk.Gather(project, tree, extensions, excluded), project).Ok?
  {
    Walk.GatherPrefixFree(project, tree, extensions, excluded);
    FileTree.BuildSucceeds(Walk.Gather(project, tree, extensions, excluded), project);
  }

  /** The message of a successful run: where the archive is, then the tree listing. */
  function SuccessMessage(outputPath: Path, listing: string): string {
    CreatedPrefix + Display(outputPath) + "\n" + ListingTitle + "\n" + listing
  }

  /**
    `run_packaging(project_path, extensions, exclude_dirs, result_queue)` over
    the directory tree `tree` rooted at `project`, with `tempDir` standing for
    `tempfile.gettempdir()`. On a tree a real filesystem can hold, rendering
    never fails, so the run succeeds exactly when something was gathered and
    the archive could be written.
   */
  method RunPackaging(project: Path, tree: Walk.Dir, extensions: seq<string>, excludes: seq<string>,
                      tempDir: Path, canCreate: bool, unreadable: set<Path>)
    returns (r: PackagingResult)
    ensures var files := Walk.Gather(project, tree, extensions, Walk.ExcludeFull(project, excludes));
      && (files == [] ==> r == PackagingResult(NoFilesMessage, None))
      && (r.outputPath.Some? <==>
            files != [] && canCreate && (forall f :: f in files ==> f !in unreadable)
            && FileTree.Build(files, project).Ok?)
      && (r.outputPath.Some? ==>
            && r.outputPath.value == Archive.ArchivePath(project, tempDir)
            && r.message == SuccessMessage(r.outputPath.value, FileTree.Render(FileTree.Build(files, project).value)))
      && (files != [] && r.outputPath.None? ==> StartsWith(r.message, ErrorPrefix))
      && (Walk.WellFormed(tree) ==>
            (r.outputPath.Some? <==> files != [] && canCreate && forall f :: f in files ==> f !in unreadable))
  {
    var files := Walk.GatherFiles(project, tree, extensions, excludes);
    if Walk.WellFormed(tree) {
      GatheredFilesBuild(project, tree, extensions, Walk.ExcludeFull(project, excludes));
    }
    if files == [] {
      return PackagingResult(NoFilesMessage, None);
    }
    var archived := Archive.PackageFiles(project, files, tempDir, canCreate, unreadable);
    if archived.Err? {
      return PackagingResult(ErrorPrefix + FailureText(ArchiveFailed(archived.error)), None);
    }
    var outputPath := archived.value.path;
    var listing := FileTree.PrintTree(files, project);
    if listing.Err? {
      return PackagingResult(ErrorPrefix + FailureText(TreeFailed(listing.error)), None);
    }
    return PackagingResult(SuccessMessage(outputPath, listing.value), Some(outputPath));
  }
}

=== FILE: paths.dfy ===
/**
  Paths as the packaging core sees them. An absolute, normalised path is the
  sequence of its segments (`/home/u/proj` is `["home", "u", "proj"]`), so
  `os.path.join(root, name)` on a directory entry is `root + [name]`,
  `os.path.basename(os.path.normpath(p))` is the last segment, and
  `os.path.relpath` is computed from the common leading segments. The
  string-level `os.path.join` is kept for the one place that compares raw
  strings (the exclusion validator).
 */
module Paths {
  import opened Text

  type Path = seq<string>

  /** `os.path.join(a, b)` on strings, POSIX flavour. */
  function JoinStr(a: string, b: string): (r: string)
    ensures StartsWith(b, "/") ==> r == b
    ensures !StartsWith(b, "/") ==> EndsWith(r, b) && StartsWith(r, a)
  {
    if StartsWith(b, "/") then b
    else if a == [] || a[|a| - 1] == '/' then a + b
    else a + "/" + b
  }

  /** `s.split("/")`: the pieces between separators, empty pieces included. */
  function Split(s: string): (parts: seq<string>)
    ensures |parts| >= 1
    ensures forall i :: 0 <= i < |parts| ==> '/' !in parts[i]
  {
    if s == [] then [[]]
    else if s[0] == '/' then [[]] + Split(s[1..])
    else
      var t := Split(s[1..]);
      [[s[0]] + t[0]] + t[1..]
  }

  lemma JoinWithConsFirst(c: char, parts: seq<string>, sep: string)
    requires parts != []
    ensures JoinWith([[c] + parts[0]] + parts[1..], sep) == [c] + JoinWith(parts, sep)
  {
  }

  /** Splitting on '/' and joining back with '/' gives the string back. */
  lemma {:induction false} SplitJoin(s: string)
    ensures JoinWith(Split(s), "/") == s
  {
    if s != [] {
      SplitJoin(s[1..]);
      var t := Split(s[1..]);
      if s[0] == '/' {
        assert JoinWith([[]] + t, "/") == [] + "/" + JoinWith(t, "/");
      } else {
        JoinWithConsFirst(s[0], t, "/");
      }
    }
  }

  /** The string `"/seg1/seg2/..."` that an absolute segment path stands for. */
  function Display(p: Path): string {
    "/" + JoinWith(p, "/")
  }

  /** `os.path.basename(os.path.normpath(p))`: the last segment, or "" for the root. */
  function Basename(p: Path): (r: string)
    ensures p != [] ==> r == p[|p| - 1]
    ensures p == [] ==> r == ""
  {
    if p == [] then "" else p[|p| - 1]
  }

  /** Number of leading segments `a` and `b` share. */
  function CommonPrefixLength(a: Path, b: Path): (c: nat)
    ensures c <= |a| && c <= |b|
    ensures a[..c] == b[..c]
    ensures c < |a| && c < |b| ==> a[c] != b[c]
  {
    if a == [] || b == [] || a[0] != b[0] then 0
    else 1 + CommonPrefixLength(a[1..], b[1..])
  }

  function Ups(n: nat): (r: Path)
    ensures |r| == n && forall i :: 0 <= i < n ==> r[i] == ".."
  {
    if n == 0 then [] else [".."] + Ups(n - 1)
  }

  /**
    `os.path.relpath(path, start)` on normalised absolute paths: climb out of
    `start` to the common ancestor with ".." and descend into `path`; "." when
    the two are the same.
   */
  function RelPath(path: Path, start: Path): (r: Path)
    ensures r != []
  {
    var c := CommonPrefixLength(path, start);
    var rel := Ups(|start| - c) + path[c..];
    if rel == [] then ["."] else rel
  }

  /** A path strictly below `start` is named by the segments after `start`. */
  lemma RelPathBelow(path: Path, start: Path)
    requires |start| < |path| && path[..|start|] == start
    ensures RelPath(path, start) == path[|start|..]
    ensures start + RelPath(path, start) == path
  {
    var c := CommonPrefixLength(path, start);
    assert c == |start|;
  }

  /** Relative to itself a path is ".". */
  lemma RelPathSelf(p: Path)
    ensures RelPath(p, p) == ["."]
  {
  }
}

=== FILE: seqs.dfy ===
/** Small facts about sequences shared by the other modules. */
module Seqs {
  import opened Wrappers

  /** No element occurs twice. */
  predicate NoDuplicates<T(==)>(s: seq<T>) {
    forall i, j :: 0 <= i < j < |s| ==> s[i] != s[j]
  }

  lemma NoDuplicatesAppend<T>(a: seq<T>, b: seq<T>)
    requires NoDuplicates(a) && NoDuplicates(b)
    requires forall x :: x in a ==> x !in b
    ensures NoDuplicates(a + b)
  {
    forall i, j | 0 <= i < j < |a + b| ensures (a + b)[i] != (a + b)[j] {
      if i < |a| && j >= |a| {
        assert (a + b)[i] in a && (a + b)[j] == b[j - |a|];
      }
    }
  }

  /** The position of the first element satisfying `p`, if any. */
  function FirstWhere<T>(s: seq<T>, p: T -> bool): (r: Option<nat>)
    ensures r.Some? ==> r.value < |s|
  {
    if s == [] then None
    else if p(s[0]) then Some(0)
    else
      match FirstWhere(s[1..], p)
      case None => None
      case Some(i) => Some(i + 1)
  }

  /** What `FirstWhere` finds satisfies `p` and nothing before it does; when it finds nothing, nothing does. */
  lemma {:induction false} FirstWhereFound<T>(s: seq<T>, p: T -> bool)
    ensures FirstWhere(s, p).Some? ==>
      p(s[FirstWhere(s, p).value]) && forall j :: 0 <= j < FirstWhere(s, p).value ==> !p(s[j])
    ensures FirstWhere(s, p).None? ==> forall j :: 0 <= j < |s| ==> !p(s[j])
  {
    if s != [] && !p(s[0]) {
      FirstWhereFound(s[1..], p);
      forall j | 1 <= j < |s| ensures s[j] == s[1..][j - 1] { }
    }
  }

  /** The first element satisfying `p` is the one `FirstWhere` finds. */
  lemma {:induction false} FirstWhereAt<T>(s: seq<T>, p: T -> bool, i: nat)
    requires i < |s| && p(s[i])
    requires forall j :: 0 <= j < i ==> !p(s[j])
    ensures FirstWhere(s, p) == Some(i)
  {
    if i > 0 {
      assert !p(s[0]);
      FirstWhereAt(s[1..], p, i - 1);
    }
  }

  /** When nothing satisfies `p`, `FirstWhere` finds nothing. */
  lemma {:induction false} FirstWhereNone<T>(s: seq<T>, p: T -> bool)
    requires forall j :: 0 <= j < |s| ==> !p(s[j])
    ensures FirstWhere(s, p).None?
  {
    if s != [] {
      assert !p(s[0]);
      FirstWhereNone(s[1..], p);
    }
  }

  /** Two sequences that agree on their first element and differ after it differ. */
  lemma PrefixAfterHead<T>(a: seq<T>, b: seq<T>)
    requires 0 < |a| <= |b| && b[1..][..|a| - 1] != a[1..]
    ensures b[..|a|] != a
  {
  }

  /** No element is a proper prefix of another. */
  predicate PrefixFree<T(==)>(xs: seq<seq<T>>) {
    forall a, b :: a in xs && b in xs && |a| < |b| ==> b[..|a|] != a
  }

  /** Dropping the last element keeps a list prefix-free, and no earlier element is a proper prefix of the last. */
  lemma PrefixFreeDropLast<T>(xs: seq<seq<T>>)
    requires xs != [] && PrefixFree(xs)
    ensures PrefixFree(xs[..|xs| - 1])
    ensures forall g :: g in xs[..|xs| - 1] && |g| < |xs[|xs| - 1]| ==> xs[|xs| - 1][..|g|] != g
  {
    var init := xs[..|xs| - 1];
    assert xs[|xs| - 1] in xs;
    forall a, b | a in init && b in init && |a| < |b| ensures b[..|a|] != a {
      assert a in xs && b in xs;
    }
    forall g | g in init && |g| < |xs[|xs| - 1]| ensures xs[|xs| - 1][..|g|] != g {
      assert g in xs;
    }
  }
}

=== FILE: text.dfy ===
/**
  String helpers the source takes from Python's `str`: `lower`, `startswith`,
  `endswith` and `strip`. Case folding maps only `A`-`Z`, and `strip` removes
  only space, tab, newline, carriage return, vertical tab and form feed.
 */
module Text {

  predicate IsUpper(c: char) { 'A' <= c <= 'Z' }

  function LowerChar(c: char): (r: char)
    ensures !IsUpper(r)
    ensures !IsUpper(c) ==> r == c
  {
    if IsUpper(c) then (c as int + 32) as char else c
  }

  /** `s.lower()`: same length, every character folded, no upper-case letter left. */
  function Lower(s: string): (r: string)
    ensures |r| == |s|
    ensures forall i :: 0 <= i < |s| ==> r[i] == LowerChar(s[i])
    ensures forall i :: 0 <= i < |r| ==> !IsUpper(r[i])
  {
    seq(|s|, i requires 0 <= i < |s| => LowerChar(s[i]))
  }

  predicate HasUpper(s: string) { exists i :: 0 <= i < |s| && IsUpper(s[i]) }

  lemma LowerIdempotent(s: string)
    ensures Lower(Lower(s)) == Lower(s)
  {
  }

  predicate StartsWith(s: string, prefix: string) {
    |prefix| <= |s| && s[..|prefix|] == prefix
  }

  predicate EndsWith(s: string, suffix: string) {
    |suffix| <= |s| && s[|s| - |suffix|..] == suffix
  }

  /** An upper-case suffix can never end a lower-cased string. */
  lemma {:induction false} LoweredNeverEndsWithUpper(s: string, suffix: string)
    requires HasUpper(suffix)
    ensures !EndsWith(Lower(s), suffix)
  {
    var k :| 0 <= k < |suffix| && IsUpper(suffix[k]);
    var r := Lower(s);
    if |suffix| <= |r| {
      assert r[|r| - |suffix|..][k] != suffix[k];
    }
  }

  /** The white space `Trim` removes: space, tab, newline, carriage return, vertical tab and form feed. */
  predicate IsSpace(c: char) {
    c == ' ' || c == '\t' || c == '\n' || c == '\r' || c == '\U{B}' || c == '\U{C}'
  }

  /** Every character of `s` from index `lo` up to `hi` is white space. */
  predicate SpaceBetween(s: string, lo: int, hi: int) {
    forall i :: lo <= i < hi && 0 <= i < |s| ==> IsSpace(s[i])
  }

  /** The scan from the left: the first index from `i` on that is not white space, or `|s|`. */
  function SkipSpace(s: string, i: nat): (j: nat)
    requires i <= |s|
    ensures i <= j <= |s| && SpaceBetween(s, i, j)
    ensures j < |s| ==> !IsSpace(s[j])
    decreases |s| - i
  {
    if i < |s| && IsSpace(s[i]) then SkipSpace(s, i + 1) else i
  }

  /** The scan from the right: where the run of white space ending at `j` begins. */
  function SkipSpaceBack(s: string, j: nat): (i: nat)
    requires j <= |s|
    ensures i <= j && SpaceBetween(s, i, j)
    ensures 0 < i ==> !IsSpace(s[i - 1])
  {
    if 0 < j && IsSpace(s[j - 1]) then SkipSpaceBack(s, j - 1) else j
  }

  /**
    `s.strip()`: the result is a slice of `s`, everything cut away before and
    after it is white space, and the result neither starts nor ends with white
    space.
   */
  function Trim(s: string): (r: string)
    ensures var k := SkipSpace(s, 0); k + |r| <= |s| && r == s[k..k + |r|]
    ensures var k := SkipSpace(s, 0); SpaceBetween(s, 0, k) && SpaceBetween(s, k + |r|, |s|)
    ensures r != [] ==> !IsSpace(r[0]) && !IsSpace(r[|r| - 1])
    ensures SpaceBetween(s, 0, |s|) <==> r == []
  {
    var lo := SkipSpace(s, 0);
    if lo == |s| then []
    else
      var hi := SkipSpaceBack(s, |s|);
      s[lo..hi]
  }

  /** A string ends with the last character of any non-empty suffix of it. */
  lemma EndsWithLast(s: string, suffix: string)
    requires suffix != [] && EndsWith(s, suffix)
    ensures s[|s| - 1] == suffix[|suffix| - 1]
  {
    assert s[|s| - |suffix|..][|suffix| - 1] == s[|s| - 1];
  }

  /** Stripping twice changes nothing more. */
  lemma TrimIdempotent(s: string)
    ensures Trim(Trim(s)) == Trim(s)
  {
    TrimFixed(Trim(s));
  }

  /** A string that neither starts nor ends with whitespace is left alone by stripping. */
  lemma TrimFixed(s: string)
    requires s != [] ==> !IsSpace(s[0]) && !IsSpace(s[|s| - 1])
    ensures Trim(s) == s
  {
  }

  /** `"".join(parts)` with a separator: `sep.join(parts)`. */
  function JoinWith(parts: seq<string>, sep: string): (r: string)
    ensures parts == [] ==> r == []
    ensures |parts| == 1 ==> r == parts[0]
  {
    if parts == [] then []
    else if |parts| == 1 then parts[0]
    else parts[0] + sep + JoinWith(parts[1..], sep)
  }
}

=== FILE: validate_exclude.dfy ===
/**
  `validate_exclude_dir`: join the exclusion onto the project path and accept
  it only when the result is an existing directory whose text starts with the
  project path. Whether a path is a directory is a property of the
  filesystem, given here as the predicate `isdir`.
 */
module ExcludeValidation {
  import opened Wrappers
  import opened Text
  import opened Paths

  /** `InvalidSubdirectoryException` and its message. */
  datatype InvalidSubdirectory = InvalidSubdirectory(message: string)

  const MessageHead: string := "排除的目录 '"
  const MessageMiddle: string := "' 无效: "

  /** The message of the exception: the exclusion as typed, then the joined path. */
  function InvalidMessage(excludeDir: string, fullPath: string): (m: string)
    ensures StartsWith(m, MessageHead)
    ensures |MessageHead| + |excludeDir| <= |m| && m[|MessageHead|..|MessageHead| + |excludeDir|] == excludeDir
    ensures EndsWith(m, fullPath)
  {
    MessageHead + excludeDir + MessageMiddle + fullPath
  }

  /**
    `validate_exclude_dir(exclude_dir, project_path)`: `Ok(true)` exactly when
    the joined path is a directory and starts with `project_path` as a
    string; otherwise the exception, naming both the input and the joined
    path.
   */
  function ValidateExcludeDir(excludeDir: string, projectPath: string, isdir: string -> bool)
    : (r: Result<bool, InvalidSubdirectory>)
    ensures var full := JoinStr(projectPath, excludeDir);
      && (r.Ok? <==> isdir(full) && StartsWith(full, projectPath))
      && (r.Ok? ==> r.value)
      && (r.Err? ==> r.error.message == InvalidMessage(excludeDir, full))
  {
    var full := JoinStr(projectPath, excludeDir);
    if !(isdir(full) && StartsWith(full, projectPath)) then
      Err(InvalidSubdirectory(InvalidMessage(excludeDir, full)))
    else
      Ok(true)
  }

  /**
    For a relative exclusion the prefix test always passes, so only the
    directory test decides: `..` segments that leave the project are not
    caught.
   */
  lemma RelativeOnlyDirectoryMatters(excludeDir: string, projectPath: string, isdir: string -> bool)
    requires !StartsWith(excludeDir, "/")
    ensures ValidateExcludeDir(excludeDir, projectPath, isdir).Ok? <==> isdir(JoinStr(projectPath, excludeDir))
  {
    var full := JoinStr(projectPath, excludeDir);
    assert StartsWith(full, projectPath);
  }

  /** An absolute exclusion replaces the project path in the join and is judged on its own text. */
  lemma AbsoluteJudgedAlone(excludeDir: string, projectPath: string, isdir: string -> bool)
    requires StartsWith(excludeDir, "/")
    ensures ValidateExcludeDir(excludeDir, projectPath, isdir).Ok? <==>
      isdir(excludeDir) && StartsWith(excludeDir, projectPath)
  {
  }

  /**
    The prefix test is on characters, not path segments: with project
    `/a/b`, the sibling directory `/a/bc` passes it.
   */
  lemma SiblingWithSharedPrefixAccepted()
    ensures ValidateExcludeDir("/a/bc", "/a/b", _ => true) == Ok(true)
  {
    assert StartsWith("/a/bc", "/a/b") by {
      assert "/a/bc"[..|"/a/b"|] == "/a/b";
    }
  }

  /** A relative exclusion climbing out of the project with `..` is accepted when the target exists. */
  lemma EscapeWithDotDotAccepted()
    ensures ValidateExcludeDir("../x", "/a/b", _ => true) == Ok(true)
  {
    assert !StartsWith("../x", "/") by {
      assert "../x"[0] == '.';
    }
    RelativeOnlyDirectoryMatters("../x", "/a/b", _ => true);
  }

  /** Whatever the filesystem says, an absolute path not starting with the project text is rejected. */
  lemma OutsideAbsoluteRejected(excludeDir: string, projectPath: string, isdir: string -> bool)
    requires StartsWith(excludeDir, "/") && !StartsWith(excludeDir, projectPath)
    ensures ValidateExcludeDir(excludeDir, projectPath, isdir).Err?
  {
  }
}

=== FILE: walk.dfy ===
/**
  The filtered directory walk of `gather_files`. The filesystem below the
  project root is a tree of directories, each listing its files and its
  subdirectories in the order the operating system reports them. The walk is
  `os.walk` top-down: a directory's own files first, then the subdirectories
  that survive pruning, each walked completely before the next one.
 */
module Walk {
  import opened Text
  import opened Paths
  import opened Seqs

  /** A directory as `os.walk` reports it: its name, its file names, its subdirectories. */
  datatype Dir = Dir(name: string, files: seq<string>, subdirs: seq<Dir>)

  /** A directory still to be walked, with its absolute path (the `root` of `os.walk`). */
  datatype Pending = Pending(root: Path, dir: Dir)

  function Size(d: Dir): (n: nat)
    ensures n >= 1
    decreases d
  {
    1 + SizeAll(d.subdirs)
  }

  function SizeAll(ds: seq<Dir>): nat
    decreases ds
  {
    if ds == [] then 0 else Size(ds[0]) + SizeAll(ds[1..])
  }

  function PendingSize(ps: seq<Pending>): nat {
    if ps == [] then 0 else Size(ps[0].dir) + PendingSize(ps[1..])
  }

  lemma {:induction false} PendingSizeAppend(a: seq<Pending>, b: seq<Pending>)
    ensures PendingSize(a + b) == PendingSize(a) + PendingSize(b)
  {
    if a != [] {
      assert (a + b)[0] == a[0];
      assert (a + b)[1..] == a[1..] + b;
      PendingSizeAppend(a[1..], b);
    } else {
      assert a + b == b;
    }
  }

  /** `any(file.lower().endswith(ext) for ext in extensions)`; the extensions are used as given. */
  predicate Matches(file: string, extensions: seq<string>) {
    exists e :: e in extensions && EndsWith(Lower(file), e)
  }

  /** An extension holding an upper-case letter never selects a file, since only the file name is lower-cased. */
  lemma UpperExtensionNeverMatches(file: string, extensions: seq<string>)
    requires forall e :: e in extensions ==> HasUpper(e)
    ensures !Matches(file, extensions)
  {
    forall e | e in extensions ensures !EndsWith(Lower(file), e) {
      LoweredNeverEndsWithUpper(file, e);
    }
  }

  /** The absolute exclusion paths: `os.path.join(project_path, exclude_dir)` for each entry. */
  function ExcludeFull(project: Path, excludes: seq<string>): (r: seq<Path>)
    ensures |r| == |excludes|
    ensures forall i :: 0 <= i < |excludes| ==> r[i] == project + Split(excludes[i])
  {
    seq(|excludes|, i requires 0 <= i < |excludes| => project + Split(excludes[i]))
  }

  /** `[d for d in dirs if os.path.join(root, d) not in exclude_dirs_full]`. */
  function Surviving(root: Path, ds: seq<Dir>, excluded: seq<Path>): (r: seq<Dir>)
    ensures forall s :: s in r <==> s in ds && root + [s.name] !in excluded
  {
    if ds == [] then []
    else (if root + [ds[0].name] in excluded then [] else [ds[0]]) + Surviving(root, ds[1..], excluded)
  }

  /** The directories pushed for walking, with their joined paths. */
  function Children(root: Path, ds: seq<Dir>): (r: seq<Pending>)
    ensures |r| == |ds|
    ensures forall i :: 0 <= i < |ds| ==> r[i] == Pending(root + [ds[i].name], ds[i])
  {
    if ds == [] then [] else [Pending(root + [ds[0].name], ds[0])] + Children(root, ds[1..])
  }

  lemma ChildrenSize(root: Path, ds: seq<Dir>)
    ensures PendingSize(Children(root, ds)) == SizeAll(ds)
  {
  }

  lemma {:induction false} SurvivingSize(root: Path, ds: seq<Dir>, excluded: seq<Path>)
    ensures SizeAll(Surviving(root, ds, excluded)) <= SizeAll(ds)
  {
    if ds != [] {
      SurvivingSize(root, ds[1..], excluded);
      var head := if root + [ds[0].name] in excluded then [] else [ds[0]];
      SizeAllAppend(head, Surviving(root, ds[1..], excluded));
    }
  }

  lemma {:induction false} SizeAllAppend(a: seq<Dir>, b: seq<Dir>)
    ensures SizeAll(a + b) == SizeAll(a) + SizeAll(b)
  {
    if a != [] {
      assert (a + b)[0] == a[0];
      assert (a + b)[1..] == a[1..] + b;
      SizeAllAppend(a[1..], b);
    } else {
      assert a + b == b;
    }
  }

  // ---------------------------------------------------------------------
  // The walk, as a specification

  /** The matching files of one directory, in listing order, joined to its path. */
  function MatchingFiles(root: Path, files: seq<string>, extensions: seq<string>): (r: seq<Path>)
    ensures forall p :: p in r <==> exists f :: f in files && Matches(f, extensions) && p == root + [f]
  {
    if files == [] then []
    else
      var rest := MatchingFiles(root, files[..|files| - 1], extensions);
      var f := files[|files| - 1];
      assert files == files[..|files| - 1] + [f];
      rest + (if Matches(f, extensions) then [root + [f]] else [])
  }

  /** What `gather_files` returns for the directory `d` at path `root`. */
  function Gather(root: Path, d: Dir, extensions: seq<string>, excluded: seq<Path>): seq<Path>
    decreases Size(d), 0
  {
    MatchingFiles(root, d.files, extensions) + GatherSubdirs(root, d.subdirs, extensions, excluded)
  }

  /** The walks of the subdirectories `ds` of `root` that are not pruned, in order. */
  function GatherSubdirs(root: Path, ds: seq<Dir>, extensions: seq<string>, excluded: seq<Path>): seq<Path>
    decreases SizeAll(ds), 1
  {
    if ds == [] then []
    else
      (if root + [ds[0].name] in excluded then [] else Gather(root + [ds[0].name], ds[0], extensions, excluded))
      + GatherSubdirs(root, ds[1..], extensions, excluded)
  }

  /** The walks of the pending directories, one after the other. */
  function GatherAll(ps: seq<Pending>, extensions: seq<string>, excluded: seq<Path>): seq<Path>
    decreases PendingSize(ps)
  {
    if ps == [] then [] else Gather(ps[0].root, ps[0].dir, extensions, excluded) + GatherAll(ps[1..], extensions, excluded)
  }

  lemma {:induction false} GatherAllAppend(a: seq<Pending>, b: seq<Pending>, extensions: seq<string>, excluded: seq<Path>)
    ensures GatherAll(a + b, extensions, excluded) == GatherAll(a, extensions, excluded) + GatherAll(b, extensions, excluded)
    decreases |a|
  {
    if a != [] {
      assert (a + b)[0] == a[0];
      assert (a + b)[1..] == a[1..] + b;
      GatherAllAppend(a[1..], b, extensions, excluded);
      var g := Gather(a[0].root, a[0].dir, extensions, excluded);
      assert GatherAll(a + b, extensions, excluded) == g + GatherAll(a[1..] + b, extensions, excluded);
    } else {
      assert a + b == b;
    }
  }

  /** Pushing the surviving children is the same as walking the unpruned subdirectories. */
  lemma {:induction false} ChildrenGather(root: Path, ds: seq<Dir>, extensions: seq<string>, excluded: seq<Path>)
    ensures GatherAll(Children(root, Surviving(root, ds, excluded)), extensions, excluded)
         == GatherSubdirs(root, ds, extensions, excluded)
  {
    if ds != [] {
      ChildrenGather(root, ds[1..], extensions, excluded);
      var head := if root + [ds[0].name] in excluded then [] else [ds[0]];
      assert Surviving(root, ds, excluded) == head + Surviving(root, ds[1..], excluded);
      assert Children(root, head + Surviving(root, ds[1..], excluded))
          == Children(root, head) + Children(root, Surviving(root, ds[1..], excluded));
      GatherAllAppend(Children(root, head), Children(root, Surviving(root, ds[1..], excluded)), extensions, excluded);
    }
  }

  /** One iteration of the walk: take the first pending directory, replace it by its surviving children. */
  lemma WalkStep(ps: seq<Pending>, extensions: seq<string>, excluded: seq<Path>)
    requires ps != []
    ensures var kept := Surviving(ps[0].root, ps[0].dir.subdirs, excluded);
      && GatherAll(ps, extensions, excluded)
         == MatchingFiles(ps[0].root, ps[0].dir.files, extensions)
            + GatherAll(Children(ps[0].root, kept) + ps[1..], extensions, excluded)
      && PendingSize(Children(ps[0].root, kept) + ps[1..]) < PendingSize(ps)
  {
    var root, dir, rest := ps[0].root, ps[0].dir, ps[1..];
    var kept := Surviving(root, dir.subdirs, excluded);
    ChildrenGather(root, dir.subdirs, extensions, excluded);
    GatherAllAppend(Children(root, kept), rest, extensions, excluded);
    ChildrenSize(root, kept);
    SurvivingSize(root, dir.subdirs, excluded);
    PendingSizeAppend(Children(root, kept), rest);
  }

  // ---------------------------------------------------------------------
  // What the walk selects, stated without the walk

  /** `rel` names a file of `d`: one of its own files, or a file below a subdirectory of that name. */
  predicate FileAt(d: Dir, rel: Path)
    decreases d
  {
    || (|rel| == 1 && rel[0] in d.files)
    || (|rel| > 1 && exists s :: s in d.subdirs && s.name == rel[0] && FileAt(s, rel[1..]))
  }

  /** No directory strictly between `root` and the file `root + rel` is an exclusion path. */
  predicate NoExcludedAncestor(root: Path, rel: Path, excluded: seq<Path>) {
    forall k :: 1 <= k < |rel| ==> root + rel[..k] !in excluded
  }

  /**
    The files the walk is meant to return: below `root`, present in the tree,
    with a matching name, and not under any excluded directory.
   */
  predicate Selected(root: Path, d: Dir, extensions: seq<string>, excluded: seq<Path>, p: Path) {
    && |root| < |p| && p[..|root|] == root
    && FileAt(d, p[|root|..])
    && Matches(p[|p| - 1], extensions)
    && NoExcludedAncestor(root, p[|root|..], excluded)
  }

  lemma {:induction false} SubdirsMembership(root: Path, ds: seq<Dir>, extensions: seq<string>, excluded: seq<Path>, p: Path)
    ensures p in GatherSubdirs(root, ds, extensions, excluded)
        <==> exists s :: s in ds && root + [s.name] !in excluded && p in Gather(root + [s.name], s, extensions, excluded)
  {
    if ds != [] {
      SubdirsMembership(root, ds[1..], extensions, excluded, p);
      assert forall s :: s in ds <==> s == ds[0] || s in ds[1..];
    }
  }

  /** A file selected in a subdirectory is selected in its parent, when the subdirectory is not excluded. */
  lemma LiftSelected(root: Path, d: Dir, s: Dir, extensions: seq<string>, excluded: seq<Path>, p: Path)
    requires s in d.subdirs && root + [s.name] !in excluded
    requires Selected(root + [s.name], s, extensions, excluded, p)
    ensures Selected(root, d, extensions, excluded, p)
  {
    var rel := p[|root|..];
    var sub := p[|root| + 1..];
    assert p[..|root| + 1] == root + [s.name];
    assert p[..|root|] == root;
    assert rel == [s.name] + sub;
    assert rel[1..] == sub;
    assert FileAt(d, rel);
    forall k | 1 <= k < |rel| ensures root + rel[..k] !in excluded {
      if k > 1 {
        assert root + rel[..k] == (root + [s.name]) + sub[..k - 1];
      } else {
        assert root + rel[..k] == root + [s.name];
      }
    }
  }

  /** A selected file that lies below a subdirectory is selected in that subdirectory. */
  lemma LowerSelected(root: Path, d: Dir, s: Dir, extensions: seq<string>, excluded: seq<Path>, p: Path)
    requires Selected(root, d, extensions, excluded, p)
    requires |p| > |root| + 1 && s in d.subdirs && s.name == p[|root|] && FileAt(s, p[|root| + 1..])
    ensures root + [s.name] !in excluded
    ensures Selected(root + [s.name], s, extensions, excluded, p)
  {
    var rel := p[|root|..];
    var sub := p[|root| + 1..];
    assert rel[..1] == [s.name];
    assert p[..|root| + 1] == root + [s.name];
    forall k | 1 <= k < |sub| ensures (root + [s.name]) + sub[..k] !in excluded {
      assert (root + [s.name]) + sub[..k] == root + rel[..k + 1];
    }
  }

  /**
    The walk returns exactly the selected files: `p` is returned iff it lies
    below `root`, names a file of the tree, its name ends (lower-cased) with one
    of the extensions, and no directory on the way to it is an exclusion path.
   */
  lemma {:induction false} GatherMembership(root: Path, d: Dir, extensions: seq<string>, excluded: seq<Path>, p: Path)
    ensures p in Gather(root, d, extensions, excluded) <==> Selected(root, d, extensions, excluded, p)
  {
    if p in Gather(root, d, extensions, excluded) {
      GatheredSelected(root, d, extensions, excluded, p);
    }
    if Selected(root, d, extensions, excluded, p) {
      SelectedGathered(root, d, extensions, excluded, p);
    }
  }

  /** Every file the walk returns is selected. */
  lemma {:induction false} GatheredSelected(root: Path, d: Dir, extensions: seq<string>, excluded: seq<Path>, p: Path)
    requires p in Gather(root, d, extensions, excluded)
    ensures Selected(root, d, extensions, excluded, p)
    decreases d
  {
    if p in MatchingFiles(root, d.files, extensions) {
      var f :| f in d.files && Matches(f, extensions) && p == root + [f];
      assert p[|root|..] == [f];
    } else {
      SubdirsMembership(root, d.subdirs, extensions, excluded, p);
      var s :| s in d.subdirs && root + [s.name] !in excluded && p in Gather(root + [s.name], s, extensions, excluded);
      GatheredSelected(root + [s.name], s, extensions, excluded, p);
      LiftSelected(root, d, s, extensions, excluded, p);
    }
  }

  /** Every selected file is returned by the walk. */
  lemma {:induction false} SelectedGathered(root: Path, d: Dir, extensions: seq<string>, excluded: seq<Path>, p: Path)
    requires Selected(root, d, extensions, excluded, p)
    ensures p in Gather(root, d, extensions, excluded)
    decreases d
  {
    var rel := p[|root|..];
    if |rel| == 1 {
      assert p == root + [rel[0]];
      assert p in MatchingFiles(root, d.files, extensions);
    } else {
      var s :| s in d.subdirs && s.name == rel[0] && FileAt(s, rel[1..]);
      assert rel[1..] == p[|root| + 1..];
      LowerSelected(root, d, s, extensions, excluded, p);
      SelectedGathered(root + [s.name], s, extensions, excluded, p);
      SubdirsMembership(root, d.subdirs, extensions, excluded, p);
    }
  }

  /** With no extensions nothing is collected: `any` over an empty list is false. */
  lemma NoExtensionsNoFiles(root: Path, d: Dir, excluded: seq<Path>)
    ensures Gather(root, d, [], excluded) == []
  {
    var r := Gather(root, d, [], excluded);
    if r != [] {
      GatherMembership(root, d, [], excluded, r[0]);
    }
  }

  /** Nothing below an excluded directory is returned. */
  lemma ExcludedSubtreeOmitted(root: Path, d: Dir, extensions: seq<string>, excluded: seq<Path>, q: Path, p: Path)
    requires q in excluded && |root| < |q| < |p| && p[..|q|] == q
    ensures p !in Gather(root, d, extensions, excluded)
  {
    GatherMembership(root, d, extensions, excluded, p);
    if |root| <= |p| && p[..|root|] == root {
      var rel := p[|root|..];
      assert root + rel[..|q| - |root|] == q;
    }
  }

  /**
    Only membership of paths strictly below `root` matters: two exclusion lists
    that agree on those give the same walk, in the same order.
   */
  lemma {:induction false} GatherExclusionsAgree(root: Path, d: Dir, extensions: seq<string>, x1: seq<Path>, x2: seq<Path>)
    requires forall q :: |q| > |root| ==> (q in x1 <==> q in x2)
    ensures Gather(root, d, extensions, x1) == Gather(root, d, extensions, x2)
    decreases Size(d), 0
  {
    SubdirsExclusionsAgree(root, d.subdirs, extensions, x1, x2);
  }

  lemma {:induction false} SubdirsExclusionsAgree(root: Path, ds: seq<Dir>, extensions: seq<string>, x1: seq<Path>, x2: seq<Path>)
    requires forall q :: |q| > |root| ==> (q in x1 <==> q in x2)
    ensures GatherSubdirs(root, ds, extensions, x1) == GatherSubdirs(root, ds, extensions, x2)
    decreases SizeAll(ds), 1
  {
    if ds != [] {
      assert |root + [ds[0].name]| > |root|;
      GatherExclusionsAgree(root + [ds[0].name], ds[0], extensions, x1, x2);
      SubdirsExclusionsAgree(root, ds[1..], extensions, x1, x2);
    }
  }

  /** Listing the same exclusion paths in another order, or more than once, changes nothing. */
  lemma ExclusionOrderIrrelevant(root: Path, d: Dir, extensions: seq<string>, x1: seq<Path>, x2: seq<Path>)
    requires (set q | q in x1) == (set q | q in x2)
    ensures Gather(root, d, extensions, x1) == Gather(root, d, extensions, x2)
  {
    var s1, s2 := set q | q in x1, set q | q in x2;
    forall q ensures q in x1 <==> q in x2 {
      assert q in x1 <==> q in s1;
      assert q in x2 <==> q in s2;
    }
    GatherExclusionsAgree(root, d, extensions, x1, x2);
  }

  /** The walk root itself is never pruned: excluding it changes nothing. */
  lemma ExcludingRootChangesNothing(root: Path, d: Dir, extensions: seq<string>, excluded: seq<Path>)
    ensures Gather(root, d, extensions, excluded + [root]) == Gather(root, d, extensions, excluded)
  {
    GatherExclusionsAgree(root, d, extensions, excluded + [root], excluded);
  }

  /** A directory as a real filesystem reports it: no file name twice, no subdirectory name twice. */
  predicate WellFormed(d: Dir)
    decreases d
  {
    && NoDuplicates(d.files)
    && (forall i, j :: 0 <= i < j < |d.subdirs| ==> d.subdirs[i].name != d.subdirs[j].name)
    && (forall s :: s in d.subdirs ==> s.name !in d.files)
    && (forall s :: s in d.subdirs ==> WellFormed(s))
  }

  /** In a well-formed directory a subdirectory is determined by its name. */
  lemma SubdirByName(d: Dir, s: Dir, t: Dir)
    requires WellFormed(d) && s in d.subdirs && t in d.subdirs && s.name == t.name
    ensures s == t
  {
    var i :| 0 <= i < |d.subdirs| && d.subdirs[i] == s;
    var j :| 0 <= j < |d.subdirs| && d.subdirs[j] == t;
    assert !(i < j) && !(j < i);
  }

  /**
    In a well-formed tree no file lies below another file: a file's path is
    never a proper prefix of another file's path.
   */
  lemma {:induction false} FileAtNoPrefix(d: Dir, a: Path, b: Path)
    requires WellFormed(d) && FileAt(d, a) && FileAt(d, b) && |a| < |b|
    ensures b[..|a|] != a
    decreases d
  {
    var sb :| sb in d.subdirs && sb.name == b[0] && FileAt(sb, b[1..]);
    if |a| == 1 {
      assert sb.name !in d.files;
    } else if a[0] == b[0] {
      var sa :| sa in d.subdirs && sa.name == a[0] && FileAt(sa, a[1..]);
      SubdirByName(d, sa, sb);
      assert WellFormed(sa);
      FileAtNoPrefix(sa, a[1..], b[1..]);
      PrefixAfterHead(a, b);
    }
  }

  /** In a well-formed tree the walk returns files below the root, none of them below another. */
  lemma GatherPrefixFree(root: Path, d: Dir, extensions: seq<string>, excluded: seq<Path>)
    requires WellFormed(d)
    ensures forall p :: p in Gather(root, d, extensions, excluded) ==> |root| < |p| && p[..|root|] == root
    ensures PrefixFree(Gather(root, d, extensions, excluded))
  {
    var ps := Gather(root, d, extensions, excluded);
    forall p | p in ps ensures |root| < |p| && p[..|root|] == root && FileAt(d, p[|root|..]) {
      GatherMembership(root, d, extensions, excluded, p);
    }
    FilesPrefixFree(root, d, ps);
  }

  /** Paths naming files of a well-formed tree below `root` are prefix-free. */
  lemma FilesPrefixFree(root: Path, d: Dir, ps: seq<Path>)
    requires WellFormed(d)
    requires forall p :: p in ps ==> |root| < |p| && p[..|root|] == root && FileAt(d, p[|root|..])
    ensures PrefixFree(ps)
  {
    forall a, b | a in ps && b in ps && |a| < |b| ensures b[..|a|] != a {
      FileAtNoPrefix(d, a[|root|..], b[|root|..]);
      assert b[|root|..][..|a| - |root|] == b[..|a|][|root|..];
      assert a == root + a[|root|..];
    }
  }

  lemma {:induction false} MatchingFilesDistinct(root: Path, files: seq<string>, extensions: seq<string>)
    requires NoDuplicates(files)
    ensures NoDuplicates(MatchingFiles(root, files, extensions))
  {
    if files != [] {
      var init := files[..|files| - 1];
      var f := files[|files| - 1];
      assert forall g :: g in init ==> g != f;
      MatchingFilesDistinct(root, init, extensions);
      forall x | x in MatchingFiles(root, init, extensions) ensures x != root + [f] {
        var g :| g in init && Matches(g, extensions) && x == root + [g];
        assert x[|root|] == g;
      }
      NoDuplicatesAppend(MatchingFiles(root, init, extensions), if Matches(f, extensions) then [root + [f]] else []);
    }
  }

  /** Whatever the walk returns from the subdirectories lies strictly below one of them. */
  lemma SubdirsBelow(root: Path, ds: seq<Dir>, extensions: seq<string>, excluded: seq<Path>, p: Path)
    requires p in GatherSubdirs(root, ds, extensions, excluded)
    ensures |p| > |root| + 1 && exists s :: s in ds && p[..|root| + 1] == root + [s.name]
  {
    SubdirsMembership(root, ds, extensions, excluded, p);
    var s :| s in ds && root + [s.name] !in excluded && p in Gather(root + [s.name], s, extensions, excluded);
    GatheredSelected(root + [s.name], s, extensions, excluded, p);
  }

  /** A path below the first subdirectory is not returned from the later ones, whose names differ. */
  lemma FirstSubdirApart(root: Path, ds: seq<Dir>, extensions: seq<string>, excluded: seq<Path>, p: Path)
    requires ds != [] && forall i, j :: 0 <= i < j < |ds| ==> ds[i].name != ds[j].name
    requires |p| > |root| && p[..|root| + 1] == root + [ds[0].name]
    ensures p !in GatherSubdirs(root, ds[1..], extensions, excluded)
  {
    forall s | s in ds[1..] ensures p[..|root| + 1] != root + [s.name] {
      var j :| 0 <= j < |ds| - 1 && ds[1..][j] == s;
      assert ds[j + 1] == s;
      assert (root + [s.name])[|root|] != p[..|root| + 1][|root|];
    }
    if p in GatherSubdirs(root, ds[1..], extensions, excluded) {
      SubdirsBelow(root, ds[1..], extensions, excluded, p);
    }
  }

  lemma {:induction false} SubdirsDistinct(root: Path, ds: seq<Dir>, extensions: seq<string>, excluded: seq<Path>)
    requires forall i, j :: 0 <= i < j < |ds| ==> ds[i].name != ds[j].name
    requires forall s :: s in ds ==> WellFormed(s)
    ensures NoDuplicates(GatherSubdirs(root, ds, extensions, excluded))
    decreases SizeAll(ds), 1
  {
    if ds != [] {
      var s0 := ds[0];
      var here := if root + [s0.name] in excluded then [] else Gather(root + [s0.name], s0, extensions, excluded);
      var later := GatherSubdirs(root, ds[1..], extensions, excluded);
      SubdirsDistinct(root, ds[1..], extensions, excluded);
      if here != [] {
        GatherDistinct(root + [s0.name], s0, extensions, excluded);
      }
      forall p | p in here ensures p !in later {
        GatheredSelected(root + [s0.name], s0, extensions, excluded, p);
        FirstSubdirApart(root, ds, extensions, excluded, p);
      }
      NoDuplicatesAppend(here, later);
    }
  }

  /** In a well-formed tree the walk returns no path twice. */
  lemma {:induction false} GatherDistinct(root: Path, d: Dir, extensions: seq<string>, excluded: seq<Path>)
    requires WellFormed(d)
    ensures NoDuplicates(Gather(root, d, extensions, excluded))
    decreases Size(d), 0
  {
    MatchingFilesDistinct(root, d.files, extensions);
    SubdirsDistinct(root, d.subdirs, extensions, excluded);
    var mine := MatchingFiles(root, d.files, extensions);
    var below := GatherSubdirs(root, d.subdirs, extensions, excluded);
    forall p | p in mine && p in below ensures false {
      var f :| f in d.files && Matches(f, extensions) && p == root + [f];
      SubdirsBelow(root, d.subdirs, extensions, excluded, p);
    }
    NoDuplicatesAppend(mine, below);
  }

  // ---------------------------------------------------------------------
  // The walk, as the source runs it

  /** After one step of the walk, what is collected plus what is still pending is unchanged. */
  lemma WalkStepFrom(files: seq<Path>, ps: seq<Pending>, extensions: seq<string>, excluded: seq<Path>)
    requires ps != []
    ensures var next := Children(ps[0].root, Surviving(ps[0].root, ps[0].dir.subdirs, excluded)) + ps[1..];
      && (files + MatchingFiles(ps[0].root, ps[0].dir.files, extensions)) + GatherAll(next, extensions, excluded)
         == files + GatherAll(ps, extensions, excluded)
      && PendingSize(next) < PendingSize(ps)
  {
    WalkStep(ps, extensions, excluded);
  }

  /** The inner `for file in files` loop: append the path of every matching file, in listing order. */
  method AppendMatching(root: Path, names: seq<string>, extensions: seq<string>, files: seq<Path>)
    returns (out: seq<Path>)
    ensures out == files + MatchingFiles(root, names, extensions)
  {
    out := files;
    var j := 0;
    while j < |names|
      invariant 0 <= j <= |names|
      invariant out == files + MatchingFiles(root, names[..j], extensions)
    {
      var f := names[j];
      assert names[..j + 1][..j] == names[..j];
      if Matches(f, extensions) {
        out := out + [root + [f]];
      }
      j := j + 1;
    }
    assert names[..j] == names;
  }

  /**
    `gather_files(project_path, extensions, exclude_dirs)`: the `os.walk` loop
    with in-place pruning of `dirs` and appending of matching files, over the
    tree `tree` rooted at `project`.
   */
  method GatherFiles(project: Path, tree: Dir, extensions: seq<string>, excludes: seq<string>)
    returns (files: seq<Path>)
    ensures files == Gather(project, tree, extensions, ExcludeFull(project, excludes))
  {
    var excluded := ExcludeFull(project, excludes);
    files := [];
    var pending := [Pending(project, tree)];
    assert GatherAll(pending, extensions, excluded) == Gather(project, tree, extensions, excluded) + GatherAll([], extensions, excluded);
    while pending != []
      invariant files + GatherAll(pending, extensions, excluded) == Gather(project, tree, extensions, excluded)
      decreases PendingSize(pending)
    {
      var root, dir := pending[0].root, pending[0].dir;
      // dirs[:] = [d for d in dirs if join(root, d) not in exclude_dirs_full]
      var kept := Surviving(root, dir.subdirs, excluded);
      var before := files;
      files := AppendMatching(root, dir.files, extensions, files);
      WalkStepFrom(before, pending, extensions, excluded);
      pending := Children(root, kept) + pending[1..];
    }
  }
}

=== FILE: wrappers.dfy ===
/** Option and Result, used for the error paths the source signals with `None` or an exception. */
module Wrappers {

  datatype Option<+T> = None | Some(value: T)

  datatype Result<+T, +E> = Ok(value: T) | Err(error: E)
}
